=== FILE: README.md ===
# Nutrition logger: data model and generic CRUD layer in Dafny

This project models the storage core of the nutrition logger backend. There are four tables: users, foods, daily logs, and food entries that link a food to a log with a quantity. The tables are updated through one generic repository class, `CRUD`, whose inputs are validated schema objects.

The model is functional. Each operation is a pure transition of an immutable store and returns a `Result`. On an error the store is unchanged.

- `values.dfy` (`Values`) defines the building blocks. These are the four table kinds, the column names, Python values (`None`, `str`, `float`, `int`, `date`) and the errors that can escape the repository layer.
- `records.dfy` (`Records`) has one record datatype per mapped class. `Get` reads a column of a row. `ColumnDefault` holds the column defaults: today's date for `date` and 1.0 for `quantity`. Three functions describe how the ORM fills a row:
  - `Build` is the INSERT/UPDATE with its NOT NULL checks.
  - `Construct` is `Model(**kw)`, where an unknown keyword raises.
  - `Assign` is the `setattr` loop, where a name that is not a column is ignored.
- `schema.dfy` (`Schemas`) declares the seven input schemas as field declarations. Each field has a type, may admit None, may have a default and may have a constraint. An instance records which fields were explicitly set. `Dump` is `model_dump` with the `exclude_unset`, `exclude_none` and `exclude_defaults` flags.
- `store.dfy` (`Storage`) holds the store: four tables keyed by surrogate id, each with the next value of its id sequence. `Valid` is the integrity invariant:
  - unique usernames and emails;
  - unique food names and manufacturers;
  - one log per (user, date);
  - every foreign key names an existing row.

  `Put` writes a row and `Remove` deletes one with its cascade. A user takes its logs with it, and a log takes its entries.
- `crud.dfy` (`Crud`) contains `create`, `create_with_user`, `update`, `delete`, `get_one`, `get_many` and `get_many_from_user`.
- `properties.dfy` (`Properties`) collects the properties that relate several calls or one schema to one operation.

The clock is a parameter: "today" is passed to every create. Dates are opaque ordered day numbers, and numeric columns are `real`.

Where the code behaves differently from what its names and schemas suggest, the model follows the code:

- `create_with_user` does not override an owner id found in the input. If `user_id` is still among the dumped fields, the call `Model(**data, user_id=id)` raises a duplicate-keyword `TypeError`. `DailyLogCreate` always carries a positive `user_id` with no default, so `create_with_user` can never succeed with it. The other create schemas fail too: their columns are not daily-log columns, or the injected `user_id` is not a column of their class.
- `get_one` and the other queries raise when a keyword filter names a column that the table lacks. They do not answer "not found" in that case.
- Deleting a food that an entry still references is refused with a foreign-key error. The foreign key declares no cascade, and `Food` has no relationship back to its entries, so the database rejects the DELETE.
- The storage layer does not require a non-empty username. Only the input schema does.
- `UserUpdate`, the string fields of `FoodUpdate`, and `FoodEntryUpdate.quantity` are declared `Optional[...]` but have no default, so they are required. Every `update` through these schemas writes them, and a None written to a NOT NULL column is an integrity error.

## Model

| member | source | states |
|---|---|---|
| Records.Get | nutrition_logger/models.py:15-55 | a row has a value exactly for the columns its table declares, always non-null and of the column's type |
| Records.Build | nutrition_logger/models.py:16-55 | a row is written exactly when every column has a non-null value of its type; a missing or None value is a NOT NULL violation; the written row holds exactly the given values |
| Records.Construct | nutrition_logger/crud/base.py:11 | building a model from keywords raises for a keyword that is not a column; a column left out or given None is left out of the INSERT, so it takes its default (today for a log's date, 1.0 for a quantity) and fails NOT NULL if it has none; otherwise every column reads back as given |
| Records.ColumnDefault | nutrition_logger/models.py:40-55 | exactly `daily_logs.date` and `food_entries.quantity` have a Python-side default, and the default has the column's type |
| Records.Assign | nutrition_logger/crud/base.py:27-28 | assigning attributes changes exactly the assigned columns of the class, ignores names that are not columns, and fails on a None for a column |
| Records.AssignSameValues | nutrition_logger/crud/base.py:27-28 | assigning every column the value it already holds leaves the row as it was |
| Schemas.Validated | nutrition_logger/schema.py:7-90 | a validated instance has exactly its schema's fields; a field without a default was set; an unset field holds its default; a set value is None only for an `Optional` field and otherwise has the field's type and meets its `min_length`, `gt` or `ge` bound |
| Schemas.Dump | nutrition_logger/crud/base.py:10-26 | the dump keeps only fields of the instance with their values; `exclude_unset` drops unset fields, `exclude_none` drops None, `exclude_defaults` drops values equal to the default; a field is kept exactly when no active flag excludes it, so with no flag every field is kept |
| Schemas.DumpMonotone | nutrition_logger/crud/base.py:10-18 | more exclusion flags only remove fields, so the `create_with_user` dump is a sub-map of the `create` dump, which is a sub-map of the `update` dump |
| Schemas.InputSchemaTyped | nutrition_logger/schema.py:7-90 | every field of the seven input schemas has its column's type, and so has every default |
| Schemas.ValidatedWellTyped | nutrition_logger/schema.py:7-90 | after validation every field of an input holds a value of its column's type, or None only in an `Optional` field |
| Schemas.ValidUserInput | nutrition_logger/schema.py:7-9 | a valid user input always sets a non-empty username and an email |
| Schemas.ValidFoodInput | nutrition_logger/schema.py:27-35 | a valid food input has non-empty name, manufacturer and unit, serving size > 0 (1.0 when unset) and calories, protein, carbs, fat >= 0 (0 when unset) |
| Schemas.ValidDailyLogInput | nutrition_logger/schema.py:57-61 | a valid daily log input has only a positive user id, always set, and no date field |
| Schemas.ValidFoodEntryInput | nutrition_logger/schema.py:73-76 | a valid food entry input has positive log and food ids and a positive quantity that is 1 when unset |
| Storage.Valid | nutrition_logger/models.py:16-54 | the integrity invariant: usernames, emails, food names and manufacturers are unique, a user has at most one log per date, every foreign key names an existing row, and every key was drawn from its table's sequence |
| Storage.PutSame | nutrition_logger/crud/base.py:29-31 | writing back a row unchanged at its own key leaves the store as it was |
| Storage.Remove | nutrition_logger/models.py:19-44 | after a delete, the deleted row and every row it owns through the cascading relationships are gone, and every other row is exactly as before |
| Storage.PutValid | nutrition_logger/models.py:16-54 | writing a row into a valid store keeps it valid exactly when the row breaks no unique constraint and its foreign keys name existing rows |
| Storage.RemoveValid | nutrition_logger/models.py:19-58 | deleting a row with its cascade keeps every constraint, provided no entry references a food being deleted: no log or entry is left without its parent |
| Crud.Commit | nutrition_logger/crud/base.py:12-14 | a commit succeeds exactly when the resulting store satisfies every constraint; otherwise it raises a unique or foreign-key error and changes nothing |
| Crud.Create | nutrition_logger/crud/base.py:9-15 | the new row takes every field that is set and not None, and a column default elsewhere; it gets the next, unused id of its table; no other row changes; the store stays valid; an invalid keyword and a NOT NULL violation happen exactly in the stated cases |
| Crud.CreateWithUser | nutrition_logger/crud/base.py:17-23 | a `user_id` kept by the dump raises a duplicate keyword; any other kind than a daily log raises an invalid keyword; on success the row is a daily log owned by the given id, no other row changes, and the store stays valid |
| Crud.Update | nutrition_logger/crud/base.py:25-32 | exactly the columns set in the input (None included) change, and all other columns and rows are unchanged; a None for a column is a NOT NULL violation; an object not in the store is refused; the store stays valid |
| Crud.Delete | nutrition_logger/crud/base.py:34-37 | a present row is deleted and returned as it was, except a food still referenced, which is refused exactly then; the rows it owns go with it and every other row stays; the store stays valid, so the cascade leaves no dangling child |
| Crud.CreateSucceeds | nutrition_logger/crud/base.py:9-15 | `create` persists, at the next key, the row with the supplied values and the column defaults whenever that row breaks no unique or foreign-key constraint |
| Crud.CreateWithUserSucceeds | nutrition_logger/crud/base.py:17-23 | `create_with_user` on a daily log persists the owner's log, dated today or at the kept date, whenever the input keeps nothing else and the log breaks no constraint |
| Crud.UpdateSucceeds | nutrition_logger/crud/base.py:25-32 | `update` persists the row with the given fields replaced and the other columns kept whenever that row breaks no constraint |
| Crud.Scan | nutrition_logger/crud/base.py:43 | the table scan returns at most n matching rows of the table in increasing key order, and every matching row when it returns fewer than n |
| Crud.GetMany | nutrition_logger/crud/base.py:42-43 | returns at most `limit` distinct rows of the table, each satisfying every condition and keyword filter, and all matches when fewer than the limit are returned; an unknown column or a negative limit is an error |
| Crud.GetOne | nutrition_logger/crud/base.py:39-40 | returns a row satisfying every filter, or None exactly when no row matches |
| Crud.GetManyFromUser | nutrition_logger/crud/base.py:45-46 | every row returned belongs to the given user and passes the caller's filters; without positional conditions it is `get_many` with an extra `user_id` filter; an `id` keyword, a second `user_id` and positional conditions raise |
| Properties.CreateFoodWithUnsetNumberFails | nutrition_logger/models.py:28-33 | a food input that leaves serving size or a macro unset fails to insert with a NOT NULL violation, although the schema gives these fields defaults |
| Properties.CreateFoodFullySet | nutrition_logger/models.py:26-33 | a fully set food input is inserted exactly when no food shares its name or manufacturer, and the stored food holds the input's values |
| Properties.CreateDailyLogTakesToday | nutrition_logger/models.py:40-46 | a log created from the daily log schema always has today's date; it is inserted exactly when its user exists and has no log for today |
| Properties.SecondLogSameDayFails | nutrition_logger/models.py:46 | a second log for the same user on the same day is refused with a unique violation |
| Properties.CreateFoodEntryDefaultQuantity | nutrition_logger/models.py:53-55 | an entry created without a quantity gets 1.0, and is inserted exactly when its log and its food exist |
| Properties.CreateThenGetById | nutrition_logger/crud/base.py:9-15 | `get_one` by key right after `create` returns the created object |
| Properties.GetById | nutrition_logger/crud/base.py:39-40 | `get_one` filtered by key returns the row with that key, or None when there is none |
| Properties.CreateWithUserRejectsCreateInputs | nutrition_logger/crud/base.py:18-19 | no valid input of the four create schemas gets through `create_with_user`, and a daily log input always fails with a duplicate keyword |
| Properties.CreateWithUserForeignColumn | nutrition_logger/crud/base.py:18-19 | an input whose dump keeps a field that is not a daily log column never gets through `create_with_user`, whatever the table |
| Properties.RequiredFieldDumped | nutrition_logger/crud/base.py:18 | a field with no default that admits no None is always kept by the dump that drops unset, None and default fields |
| Properties.UpdateNothingSetIsNoOp | nutrition_logger/crud/base.py:26-28 | an update whose input sets no field leaves the store as it was and returns the object |
| Properties.UpdateUserWritesBoth | nutrition_logger/schema.py:22-24 | a user update always writes both username and email; a username that is not None is non-empty; a None is a NOT NULL violation, and otherwise the update succeeds exactly when no other user has the new username or email |
| Properties.UpdateFoodWritesRequiredFields | nutrition_logger/schema.py:46-54 | a food update always writes name, manufacturer and unit; a None among them is a NOT NULL violation; numeric fields left unset keep their stored values |
| Properties.UpdateFoodEntryQuantity | nutrition_logger/schema.py:89-90 | a food entry update always writes quantity: None is a NOT NULL violation, and otherwise the quantity is a number > 0 that replaces the stored quantity and nothing else |
| Properties.DeleteUserCascades | nutrition_logger/models.py:19 | deleting a user removes it, the logs it owns and their entries, and keeps every other row |
| Properties.DeleteDailyLogCascades | nutrition_logger/models.py:44 | deleting a log removes it and its entries, and keeps every other row |
| Properties.DeleteUserThenGetOne | tests/test_sqlalchemy.py:234-246 | after a user is deleted, `get_one` by key finds neither the user nor any of its logs or their entries |
| Properties.GetManyCount | nutrition_logger/crud/base.py:42-43 | `get_many` returns min(limit, number of matches) rows, and every match when there is no limit |
| Properties.GetManyFromUserOwned | nutrition_logger/crud/base.py:45-46 | every log returned for a user belongs to that user, and without a limit every matching log of the user is returned |
| Properties.AliceScenario | nutrition_logger/models.py:16 | in an empty database alice is created with key 1 and her values, and a second user named alice is refused |

## Left out

- Engine, session and environment set-up (`nutrition_logger/database/db.py`, `nutrition_logger/main.py`) and table creation are library plumbing. They are not part of this model.
- `nutrition_logger/models/*.py` and `nutrition_logger/schema/*.py` restate the single-file modules and are not modelled separately.
- Response schemas (`UserResponse`, `FoodResponse`, `DailyLogResponse`, `FoodEntryResponse`) only shape output through relationship traversal. Relationship attributes are replaced by foreign-key lookups in the store.
- `EmailStr` format checking is done by a library. An email is an opaque string here, and only its uniqueness is modelled.
- Transactions, refresh, session close, locking and isolation are not modelled. Every write is one atomic transition.
- A failed insert leaves the id sequence unchanged in the model. PostgreSQL does not roll back `nextval`, so ids can skip after a failed insert.
- Surrogate ids are never given by the input, because none of the schemas has an `id` field. An explicit primary key in `Model(**kw)` is not modelled.
- The database's implicit type casts are not modelled on writes. A written value of the wrong type for a column is refused with `WrongType`, and validated schema inputs never produce one.
- Crud.GetMany: keyword filter values are compared by exact value equality, with an integer equal to the float of the same magnitude. PostgreSQL instead casts a string literal to the column's type (`user_id="1"` finds user 1's logs) and raises for a comparison it cannot type (`username=5`). The model matches nothing in both cases.
- Crud.GetOne: the same holds for `get_one`, which is `get_many` with limit 1. For a filter value PostgreSQL cannot compare with the column, the model answers None where the database raises.
- Schemas.InputSchemaTyped: the source writes the defaults of the float fields `calories`, `protein`, `carbs`, `fat` (in both food schemas) and `quantity` as the Python ints `0` and `1`. Pydantic does not validate defaults, so these stay ints. The model writes them as the floats 0.0 and 1.0. This is harmless: `exclude_defaults` compares with `==`, where `0 == 0.0`, and an unset field never reaches the dumps that `create` and `update` use.
- Schemas.ValidatedWellTyped: for the same reason, an unset `calories`, `protein`, `carbs`, `fat` or `quantity` holds an int in the source, not a float. The model states that every field holds a value of its column's type, which is true only after that conversion.
- Positional `filter` conditions are total boolean functions of a record. SQL three-valued logic and errors inside an expression are not modelled.
- Crud.Scan: the database returns rows in an unspecified order. The model scans keys in increasing order, and only `Scan` itself states that order. `GetMany` and `GetOne` promise nothing about order.
- The `delete-orphan` cascade for a child removed from its parent's collection is not modelled, because no repository operation removes a child from a collection.
- Crud.Delete: the model identifies an object by its table and key, and refuses with `NotPersisted` a key that has no row. The ORM instead deletes an already-deleted (detached) object again: its DELETE matches no row, which SQLAlchemy only warns about without a version column, and `delete` returns the object with the database unchanged.
- Records.Build: integer columns are unbounded. PostgreSQL `integer` keys and foreign keys hold at most 2147483647, and a larger `user_id`, `daily_log_id` or `food_id` passes the schemas' `gt=0` check. The database then refuses the INSERT with an out-of-range error. The model reports that case as the foreign-key violation the missing row would cause, for example in Properties.CreateDailyLogTakesToday.
- Floating-point arithmetic and rounding are not modelled. Numeric columns are only compared, never computed.

=== FILE: crud.dfy ===
// The generic repository class `CRUD`, parameterised by the mapped class:
// two create variants, update, delete and three queries. Each write is an
// atomic transition of the store: on an error nothing changes.

module Crud {
  import opened Values
  import opened Records
  import opened Schemas
  import opened Storage

  /** A persistent object: its key and its column values. */
  datatype Record = Record(id: int, row: Row)

  /** The store after a write, and the object the call returns. */
  datatype Written = Written(store: Store, record: Record)

  /** The argument of `.limit()`: None, or a row count. */
  datatype Limit = NoLimit | AtMost(n: int)

  /** A positional `filter` argument: any condition on a row. */
  type Filter = Record -> bool

  /** Whether the call's input sets field `a` to something other than None. */
  predicate Supplied(input: Instance, a: Attr) {
    a in input.slots && Kept(input, a, true, true, false)
  }

  /** Whether the call's input sets field `a` at all (None included). */
  predicate Given(input: Instance, a: Attr) {
    a in input.slots && Kept(input, a, true, false, false)
  }

  /** The commit of a row at key `id`: refused with the database's error if
      it breaks a unique or foreign-key constraint, written otherwise. */
  function Commit(s: Store, id: int, row: Row): (r: Result<Written>)
    ensures r.Ok? ==> r.value == Written(Put(s, id, row), Record(id, row))
    ensures r.Err? ==> r.error in {UniqueViolation, ForeignKeyViolation}
    ensures Valid(s) && 1 <= id ==> (r.Ok? <==> Valid(Put(s, id, row)))
    ensures Valid(s) && 1 <= id && r.Ok? ==> Valid(r.value.store)
  {
    PutValid(s, id, row);
    match Violation(s, id, row)
    case Some(e) => Err(e)
    case None => Ok(Written(Put(s, id, row), Record(id, row)))
  }

  // ---------------------------------------------------------------------------
  // Writes
  // ---------------------------------------------------------------------------

  /** `create`: the model is built from the fields that were set and are not
      None, so a column left out takes its column default; the row gets the
      next id of its table, and every other row stays as it was. */
  function Create(s: Store, k: Kind, input: Instance, today: Day): (r: Result<Written>)
    ensures r == Err(InvalidKeyword) <==> exists a | a in input.slots :: Supplied(input, a) && a !in Attrs(k)
    ensures r == Err(NotNullViolation) <==>
      && (forall a | a in input.slots && Supplied(input, a) :: a in Attrs(k))
      && (exists a | a in Attrs(k) :: !Supplied(input, a) && ColumnDefault(a, today).None?)
    ensures r.Ok? ==>
      && r.value.record.id == Next(s, k)
      && KindOf(r.value.record.row) == k
      && Lookup(r.value.store, k, r.value.record.id) == Some(r.value.record.row)
    ensures r.Ok? ==> forall a | a in Attrs(k) ::
      Get(r.value.record.row, a) ==
        (if Supplied(input, a) then Some(input.slots[a].value) else ColumnDefault(a, today))
    ensures r.Ok? ==> forall k', j | k' != k || j != r.value.record.id ::
      Lookup(r.value.store, k', j) == Lookup(s, k', j)
    ensures Valid(s) && r.Ok? ==> Valid(r.value.store) && Lookup(s, k, r.value.record.id).None?
  {
    var row :- Construct(k, Dump(input, true, true, false), today);
    Commit(s, Next(s, k), row)
  }

  /** `create_with_user`: fields left unset, None, or equal to their default
      are dropped, and `user_id` is passed as an extra keyword; a `user_id`
      still among the dumped fields makes the call raise before anything is
      built.  Only a daily log has a `user_id` column. */
  function CreateWithUser(s: Store, k: Kind, input: Instance, owner: int, today: Day): (r: Result<Written>)
    ensures UserId in input.slots && Kept(input, UserId, true, true, true) ==> r == Err(DuplicateKeyword)
    ensures k != DailyLogKind && r.Err? && r.error != DuplicateKeyword ==> r.error == InvalidKeyword
    ensures r.Ok? ==>
      && k == DailyLogKind
      && r.value.record.id == Next(s, k)
      && Lookup(r.value.store, k, r.value.record.id) == Some(r.value.record.row)
      && Get(r.value.record.row, UserId) == Some(Int(owner))
    ensures r.Ok? ==>
      Get(r.value.record.row, LogDate) ==
        (if LogDate in input.slots && Kept(input, LogDate, true, true, true)
         then Some(input.slots[LogDate].value) else Some(Date(today)))
    ensures r.Ok? ==> forall k', j | k' != k || j != r.value.record.id ::
      Lookup(r.value.store, k', j) == Lookup(s, k', j)
    ensures Valid(s) && r.Ok? ==> Valid(r.value.store) && Lookup(s, k, r.value.record.id).None?
  {
    var kw := Dump(input, true, true, true);
    if UserId in kw then Err(DuplicateKeyword)
    else
      assert k != DailyLogKind ==> !(kw[UserId := Int(owner)].Keys <= Attrs(k));
      var row :- Construct(k, kw[UserId := Int(owner)], today);
      Commit(s, Next(s, k), row)
  }

  /** `update`: every field set in the input, None included, is assigned to
      the object; a field that is not a column of its class changes nothing.
      When no column changes value no UPDATE is issued; otherwise the new row
      is committed under the same key. */
  function Update(s: Store, k: Kind, id: int, input: Instance): (r: Result<Written>)
    ensures Lookup(s, k, id).None? ==> r == Err(NotPersisted)
    ensures Lookup(s, k, id).Some? && (exists a | a in Attrs(k) :: Given(input, a) && input.slots[a].value == Null) ==>
      r == Err(NotNullViolation)
    ensures r.Ok? ==>
      && r.value.record.id == id
      && Lookup(r.value.store, k, id) == Some(r.value.record.row)
      && KindOf(r.value.record.row) == k
    ensures r.Ok? ==> forall a | a in Attrs(k) ::
      Get(r.value.record.row, a) ==
        (if Given(input, a) then Some(input.slots[a].value) else Get(Lookup(s, k, id).value, a))
    ensures r.Ok? ==> forall k', j | k' != k || j != id ::
      Lookup(r.value.store, k', j) == Lookup(s, k', j)
    ensures Valid(s) && r.Ok? ==> Valid(r.value.store)
  {
    match Lookup(s, k, id)
    case None => Err(NotPersisted)
    case Some(current) =>
      var row :- Assign(current, Dump(input, true, false, false));
      if row == current then Ok(Written(s, Record(id, current)))
      else Commit(s, id, row)
  }

  /** `delete`: the row goes, and with it what it owns (a user's logs and
      their entries, a log's entries); the database refuses to remove a food
      that an entry still references.  The deleted object is returned. */
  function Delete(s: Store, k: Kind, id: int): (r: Result<Written>)
    ensures Lookup(s, k, id).None? ==> r == Err(NotPersisted)
    ensures r == Err(ForeignKeyViolation) <==> k == FoodKind && Lookup(s, k, id).Some? && FoodReferenced(s, id)
    ensures Lookup(s, k, id).Some? && !(k == FoodKind && FoodReferenced(s, id)) ==> r.Ok?
    ensures r.Ok? ==>
      && r.value.record == Record(id, Lookup(s, k, id).value)
      && Lookup(r.value.store, k, id).None?
    ensures r.Ok? ==> forall k', j | (k' != k || j != id) && !Owned(s, k, id, k', j) ::
      Lookup(r.value.store, k', j) == Lookup(s, k', j)
    ensures r.Ok? ==> forall k', j | Owned(s, k, id, k', j) :: Lookup(r.value.store, k', j).None?
    ensures Valid(s) && r.Ok? ==> Valid(r.value.store)
  {
    match Lookup(s, k, id)
    case None => Err(NotPersisted)
    case Some(row) =>
      if k == FoodKind && FoodReferenced(s, id) then Err(ForeignKeyViolation)
      else
        RemoveValid(s, k, id);
        Ok(Written(Remove(s, k, id), Record(id, row)))
  }

  // ---------------------------------------------------------------------------
  // When a write succeeds
  // ---------------------------------------------------------------------------

  /** `create` persists the row its contract describes whenever that row
      breaks no constraint: every supplied field is a column of the class,
      and the row holds the supplied values and the column defaults. */
  lemma CreateSucceeds(s: Store, k: Kind, input: Instance, today: Day, row: Row)
    requires Valid(s)
    requires forall a | a in input.slots && Supplied(input, a) :: a in Attrs(k)
    requires KindOf(row) == k
    requires forall a | a in Attrs(k) ::
      Get(row, a) == (if Supplied(input, a) then Some(input.slots[a].value) else ColumnDefault(a, today))
    requires UniqueOk(s, Next(s, k), row) && RefsOk(s, row)
    ensures Create(s, k, input, today) == Ok(Written(Put(s, Next(s, k), row), Record(Next(s, k), row)))
  {
    var kw := Dump(input, true, true, false);
    var c := Construct(k, kw, today);
    forall a | a in kw ensures a in Attrs(k) && Get(row, a) == Some(kw[a]) {
      assert Supplied(input, a);
    }
    assert c.Ok?;
    RowExtensionality(c.value, row);
  }

  /** `create_with_user` on a daily log persists the log of `owner` whenever
      the input keeps no field but a date, and that log breaks no constraint. */
  lemma CreateWithUserSucceeds(s: Store, input: Instance, owner: int, today: Day, date: Day)
    requires Valid(s)
    requires forall a | a in input.slots && Kept(input, a, true, true, true) ::
      a == LogDate && input.slots[a].value.Date?
    requires date == if LogDate in input.slots && Kept(input, LogDate, true, true, true)
      then input.slots[LogDate].value.day else today
    requires UniqueOk(s, Next(s, DailyLogKind), LogRow(DailyLog(date, owner)))
    requires RefsOk(s, LogRow(DailyLog(date, owner)))
    ensures var row := LogRow(DailyLog(date, owner));
      CreateWithUser(s, DailyLogKind, input, owner, today) ==
        Ok(Written(Put(s, Next(s, DailyLogKind), row), Record(Next(s, DailyLogKind), row)))
  {
    var row := LogRow(DailyLog(date, owner));
    var kw := Dump(input, true, true, true);
    assert UserId !in kw;
    var c := Construct(DailyLogKind, kw[UserId := Int(owner)], today);
    assert c.Ok?;
    RowExtensionality(c.value, row);
  }

  /** `update` persists the row its contract describes whenever that row
      breaks no constraint: the given fields hold their new values and
      every other column its old one. */
  lemma UpdateSucceeds(s: Store, k: Kind, id: int, input: Instance, row: Row)
    requires Valid(s) && Lookup(s, k, id).Some?
    requires KindOf(row) == k
    requires forall a | a in Attrs(k) ::
      Get(row, a) == (if Given(input, a) then Some(input.slots[a].value) else Get(Lookup(s, k, id).value, a))
    requires UniqueOk(s, id, row) && RefsOk(s, row)
    ensures Update(s, k, id, input) == Ok(Written(Put(s, id, row), Record(id, row)))
  {
    var current := Lookup(s, k, id).value;
    var kw := Dump(input, true, false, false);
    var c := Assign(current, kw);
    forall a | a in kw && a in Attrs(k) ensures Get(row, a) == Some(kw[a]) {
      assert Given(input, a);
    }
    assert c.Ok?;
    RowExtensionality(c.value, row);
    if row == current {
      PutSame(s, id, row);
    }
  }

  // ---------------------------------------------------------------------------
  // Queries
  // ---------------------------------------------------------------------------

  /** The value of a filterable column of a persistent object. */
  function ColumnOf(rec: Record, c: Column): Option<Value> {
    match c
    case PrimaryKey => Some(Int(rec.id))
    case Attribute(a) => Get(rec.row, a)
  }

  /** `filter(*preds).filter_by(**kw)`: every condition holds and every named
      column equals the given value. */
  predicate Matches(rec: Record, preds: seq<Filter>, kw: map<Column, Value>) {
    && (forall i | 0 <= i < |preds| :: preds[i](rec))
    && (forall c | c in kw :: ColumnOf(rec, c).Some? && SameValue(ColumnOf(rec, c).value, kw[c]))
  }

  /** Whether key `j` of table `k` holds a row that matches the filters. */
  predicate Hit(s: Store, k: Kind, j: int, preds: seq<Filter>, kw: map<Column, Value>) {
    Lookup(s, k, j).Some? && Matches(Record(j, Lookup(s, k, j).value), preds, kw)
  }

  /** The matching rows with keys from `from` on, in key order, at most `n`
      of them: the table scan behind `.limit(n).all()`. */
  function Scan(s: Store, k: Kind, preds: seq<Filter>, kw: map<Column, Value>, from: int, n: nat): (r: seq<Record>)
    ensures |r| <= n
    ensures from <= Next(s, k) ==> |r| <= Next(s, k) - from
    ensures forall i | 0 <= i < |r| ::
      && from <= r[i].id < Next(s, k)
      && Lookup(s, k, r[i].id) == Some(r[i].row)
      && Matches(r[i], preds, kw)
    ensures forall i, j | 0 <= i < j < |r| :: r[i].id < r[j].id
    ensures |r| < n ==> forall j | from <= j < Next(s, k) && Hit(s, k, j, preds, kw) ::
      Record(j, Lookup(s, k, j).value) in r
    decreases Next(s, k) - from
  {
    if n == 0 || from >= Next(s, k) then []
    else if Hit(s, k, from, preds, kw) then
      [Record(from, Lookup(s, k, from).value)] + Scan(s, k, preds, kw, from + 1, n - 1)
    else Scan(s, k, preds, kw, from + 1, n)
  }

  /** `get_many`: up to `limit` rows of table `k` matching the filters; a
      keyword naming no column of the table, or a negative limit, is an error. */
  function GetMany(s: Store, k: Kind, limit: Limit, preds: seq<Filter>, kw: map<Column, Value>): (r: Result<seq<Record>>)
    ensures r.Ok? <==> (forall c | c in kw :: HasColumn(k, c)) && (limit.AtMost? ==> limit.n >= 0)
    ensures r.Ok? && limit.AtMost? ==> |r.value| <= limit.n
    ensures r.Ok? ==> forall i | 0 <= i < |r.value| ::
      Lookup(s, k, r.value[i].id) == Some(r.value[i].row) && Matches(r.value[i], preds, kw)
    ensures r.Ok? ==> forall i, j | 0 <= i < j < |r.value| :: r.value[i].id != r.value[j].id
    ensures Valid(s) && r.Ok? && (limit.NoLimit? || |r.value| < limit.n) ==>
      forall j | Hit(s, k, j, preds, kw) :: Record(j, Lookup(s, k, j).value) in r.value
  {
    if exists c | c in kw :: !HasColumn(k, c) then Err(UnknownColumn)
    else
      match limit
      case AtMost(n) => if n < 0 then Err(NegativeLimit) else Ok(Scan(s, k, preds, kw, 1, n))
      case NoLimit => Ok(Scan(s, k, preds, kw, 1, if Next(s, k) < 0 then 0 else Next(s, k)))
  }

  /** `get_one`: the first matching row, or None when no row matches. */
  function GetOne(s: Store, k: Kind, preds: seq<Filter>, kw: map<Column, Value>): (r: Result<Option<Record>>)
    ensures r.Ok? <==> forall c | c in kw :: HasColumn(k, c)
    ensures r.Ok? && r.value.Some? ==>
      Lookup(s, k, r.value.value.id) == Some(r.value.value.row) && Matches(r.value.value, preds, kw)
    ensures Valid(s) && r.Ok? ==> (r.value.None? <==> forall j :: !Hit(s, k, j, preds, kw))
  {
    var rows :- GetMany(s, k, AtMost(1), preds, kw);
    if |rows| == 0 then Ok(None)
    else
      assert Hit(s, k, rows[0].id, preds, kw);
      Ok(Some(rows[0]))
  }

  /** `get_many_from_user`: `get_many` with `user_id` as an extra keyword
      filter.  An `id` keyword filter collides with the method's own `id`
      parameter, a `user_id` among the keywords is passed twice, and any
      positional condition lands on the `limit` parameter, which is also
      passed by name: all three raise. */
  function GetManyFromUser(s: Store, k: Kind, limit: Limit, owner: int, preds: seq<Filter>, kw: map<Column, Value>):
    (r: Result<seq<Record>>)
    ensures PrimaryKey in kw ==> r == Err(DuplicateArgument)
    ensures PrimaryKey !in kw && Attribute(UserId) in kw ==> r == Err(DuplicateKeyword)
    ensures |preds| > 0 ==> r.Err?
    ensures r.Ok? ==> k == DailyLogKind && |preds| == 0 && PrimaryKey !in kw
    ensures r.Ok? ==> forall i | 0 <= i < |r.value| ::
      && Lookup(s, k, r.value[i].id) == Some(r.value[i].row)
      && Get(r.value[i].row, UserId) == Some(Int(owner))
      && Matches(r.value[i], [], kw)
    ensures |preds| == 0 && PrimaryKey !in kw && Attribute(UserId) !in kw ==>
      r == GetMany(s, k, limit, [], kw[Attribute(UserId) := Int(owner)])
  {
    if PrimaryKey in kw then Err(DuplicateArgument)
    else if Attribute(UserId) in kw then Err(DuplicateKeyword)
    else if |preds| > 0 then Err(DuplicateArgument)
    else
      var r := GetMany(s, k, limit, [], kw[Attribute(UserId) := Int(owner)]);
      OwnerFiltered(r, kw, owner);
      assert r.Ok? ==> HasColumn(k, Attribute(UserId)) && UserId in Attrs(k);
      r
  }

  /** The rows that pass the extra `user_id` filter belong to `owner` and
      pass the caller's own filters. */
  lemma OwnerFiltered(r: Result<seq<Record>>, kw: map<Column, Value>, owner: int)
    requires Attribute(UserId) !in kw
    requires r.Ok? ==> forall i | 0 <= i < |r.value| :: Matches(r.value[i], [], kw[Attribute(UserId) := Int(owner)])
    ensures r.Ok? ==> forall i | 0 <= i < |r.value| ::
      Get(r.value[i].row, UserId) == Some(Int(owner)) && Matches(r.value[i], [], kw)
  {
    if r.Ok? {
      forall i | 0 <= i < |r.value|
        ensures Get(r.value[i].row, UserId) == Some(Int(owner)) && Matches(r.value[i], [], kw)
      {
        var kw' := kw[Attribute(UserId) := Int(owner)];
        assert Attribute(UserId) in kw';
        forall c | c in kw
          ensures ColumnOf(r.value[i], c).Some? && SameValue(ColumnOf(r.value[i], c).value, kw[c])
        {
          assert c in kw' && kw'[c] == kw[c];
        }
      }
    }
  }
}

=== FILE: properties.dfy ===
// Properties of the repository layer over the seven input schemas: what each
// create variant does with each schema, partial updates, the delete cascade,
// and what the queries return.

module Properties {
  import opened Values
  import opened Records
  import opened Schemas
  import opened Storage
  import opened Crud

  // ---------------------------------------------------------------------------
  // create
  // ---------------------------------------------------------------------------

  /** A food input that leaves serving_size or a macro unset omits that column
      from the INSERT; the column is NOT NULL and has no default, so the
      insert fails. */
  lemma CreateFoodWithUnsetNumberFails(s: Store, input: Instance, today: Day, a: Attr)
    requires input.schema == FoodBase && Validated(input)
    requires a in {ServingSize, Calories, Protein, Carbs, Fat} && !input.slots[a].isSet
    ensures Create(s, FoodKind, input, today) == Err(NotNullViolation)
  {
    FoodBaseShape();
    assert input.slots.Keys == Attrs(FoodKind);
    assert a in Attrs(FoodKind) && !Supplied(input, a) && ColumnDefault(a, today).None?;
  }

  /** The food a fully set food input describes. */
  function FoodOf(input: Instance): Food
    requires input.schema == FoodBase && Validated(input)
  {
    assert forall a | a in FoodBase :: a in input.slots;
    Food(
      StrOf(input.slots[Name].value), StrOf(input.slots[Manufacturer].value),
      NumOf(input.slots[ServingSize].value), StrOf(input.slots[Unit].value),
      NumOf(input.slots[Calories].value), NumOf(input.slots[Protein].value),
      NumOf(input.slots[Carbs].value), NumOf(input.slots[Fat].value))
  }

  /** With every field set, the keyword arguments name every food column with
      a value of its type. */
  lemma FoodFullySetDump(input: Instance)
    requires input.schema == FoodBase && Validated(input)
    requires forall a | a in input.slots :: input.slots[a].isSet
    ensures var kw := Dump(input, true, true, false);
      && kw.Keys == Attrs(FoodKind)
      && forall a | a in kw :: kw[a] == input.slots[a].value && HasType(kw[a], TypeOf(a))
  {
    FoodBaseShape();
    var kw := Dump(input, true, true, false);
    forall a | a in input.slots ensures Kept(input, a, true, true, false) && HasType(input.slots[a].value, TypeOf(a)) {
      assert Accepts(FoodBase[a], input.slots[a].value);
    }
  }

  /** `FoodBase` declares every food column, with the column's type and
      without admitting None. */
  lemma FoodBaseShape()
    ensures FoodBase.Keys == Attrs(FoodKind)
    ensures forall a | a in FoodBase :: FoodBase[a].ty == TypeOf(a) && !FoodBase[a].optional
  {
  }

  /** A fully set food input builds the food it describes. */
  lemma FoodFullySetRow(input: Instance, today: Day)
    requires input.schema == FoodBase && Validated(input)
    requires forall a | a in input.slots :: input.slots[a].isSet
    ensures Construct(FoodKind, Dump(input, true, true, false), today) == Ok(FoodRow(FoodOf(input)))
  {
    FoodFullySetDump(input);
    var kw := Dump(input, true, true, false);
    var r := Construct(FoodKind, kw, today);
    assert r.Ok?;
    forall a | a in Attrs(FoodKind) ensures Get(r.value, a) == Get(FoodRow(FoodOf(input)), a) {
      assert Get(r.value, a) == Some(kw[a]);
    }
    RowExtensionality(r.value, FoodRow(FoodOf(input)));
  }

  /** A food input with every field set is inserted exactly when no other food
      has its name or its manufacturer, and the row holds the given values. */
  lemma CreateFoodFullySet(s: Store, input: Instance, today: Day)
    requires Valid(s)
    requires input.schema == FoodBase && Validated(input)
    requires forall a | a in input.slots :: input.slots[a].isSet
    ensures var r := Create(s, FoodKind, input, today);
      var f := FoodOf(input);
      && (r.Ok? <==> forall j | j in s.foods.rows ::
            s.foods.rows[j].name != f.name && s.foods.rows[j].manufacturer != f.manufacturer)
      && (r.Err? ==> r.error == UniqueViolation)
      && (r.Ok? ==> r.value.record.row == FoodRow(f))
  {
    FoodFullySetRow(input, today);
    var row := FoodRow(FoodOf(input));
    assert Create(s, FoodKind, input, today) == Commit(s, Next(s, FoodKind), row);
  }

  /** A daily log input has no date field, so the log always takes today's
      date; it is inserted exactly when its user exists and has no log for
      today yet. */
  lemma CreateDailyLogTakesToday(s: Store, input: Instance, today: Day)
    requires Valid(s)
    requires input.schema == DailyLogBase && Validated(input)
    ensures var uid := input.slots[UserId].value.n;
      var r := Create(s, DailyLogKind, input, today);
      && (r.Ok? ==> r.value.record.row == LogRow(DailyLog(today, uid)))
      && (r.Ok? <==> uid in s.users.rows && forall j | j in s.logs.rows :: s.logs.rows[j] != DailyLog(today, uid))
      && (r.Err? ==> r.error in {UniqueViolation, ForeignKeyViolation})
  {
    DailyLogDump(input);
    var uid := input.slots[UserId].value.n;
    LogFromOwner(uid, today);
    assert Create(s, DailyLogKind, input, today) == Commit(s, Next(s, DailyLogKind), LogRow(DailyLog(today, uid)));
  }

  /** The keyword arguments of a daily log input: its user id alone. */
  lemma DailyLogDump(input: Instance)
    requires input.schema == DailyLogBase && Validated(input)
    ensures input.slots[UserId].value.Int?
    ensures Dump(input, true, true, false) == map[UserId := input.slots[UserId].value]
  {
    ValidDailyLogInput(input);
    var kw := Dump(input, true, true, false);
    assert UserId in kw;
    assert kw.Keys == {UserId};
  }

  /** A log built from its owner alone takes today's date. */
  lemma LogFromOwner(uid: int, today: Day)
    ensures Construct(DailyLogKind, map[UserId := Int(uid)], today) == Ok(LogRow(DailyLog(today, uid)))
  {
    var row := Construct(DailyLogKind, map[UserId := Int(uid)], today);
    assert row.Ok?;
    RowExtensionality(row.value, LogRow(DailyLog(today, uid)));
  }

  /** Creating a second log for the same user on the same day fails with a
      unique violation. */
  lemma SecondLogSameDayFails(s: Store, input: Instance, today: Day, lid: int)
    requires Valid(s)
    requires input.schema == DailyLogBase && Validated(input)
    requires lid in s.logs.rows && s.logs.rows[lid] == DailyLog(today, input.slots[UserId].value.n)
    ensures Create(s, DailyLogKind, input, today) == Err(UniqueViolation)
  {
    CreateDailyLogTakesToday(s, input, today);
  }

  /** A food entry input that leaves quantity unset builds an entry with
      quantity 1.0. */
  lemma FoodEntryDefaultRow(input: Instance, today: Day)
    requires input.schema == FoodEntryBase && Validated(input)
    requires !input.slots[Quantity].isSet
    ensures input.slots[DailyLogId].value.Int? && input.slots[FoodId].value.Int?
    ensures Construct(FoodEntryKind, Dump(input, true, true, false), today) ==
      Ok(EntryRow(FoodEntry(input.slots[DailyLogId].value.n, input.slots[FoodId].value.n, 1.0)))
  {
    ValidFoodEntryInput(input);
    FoodEntryDump(input);
    EntryFromIds(input.slots[DailyLogId].value.n, input.slots[FoodId].value.n, today);
  }

  /** The keyword arguments of a food entry input with quantity unset. */
  lemma FoodEntryDump(input: Instance)
    requires input.schema == FoodEntryBase && Validated(input)
    requires !input.slots[Quantity].isSet
    ensures input.slots[DailyLogId].value.Int? && input.slots[FoodId].value.Int?
    ensures Dump(input, true, true, false) ==
      map[DailyLogId := input.slots[DailyLogId].value, FoodId := input.slots[FoodId].value]
  {
    ValidFoodEntryInput(input);
    var kw := Dump(input, true, true, false);
    assert DailyLogId in kw && FoodId in kw && Quantity !in kw;
    assert kw.Keys == {DailyLogId, FoodId} by {
      forall a | a in kw ensures a in {DailyLogId, FoodId} {
        assert a in FoodEntryBase;
      }
    }
  }

  /** An entry built from its two keys alone takes the default quantity. */
  lemma EntryFromIds(lid: int, fid: int, today: Day)
    ensures Construct(FoodEntryKind, map[DailyLogId := Int(lid), FoodId := Int(fid)], today) ==
      Ok(EntryRow(FoodEntry(lid, fid, 1.0)))
  {
    var row := Construct(FoodEntryKind, map[DailyLogId := Int(lid), FoodId := Int(fid)], today);
    assert row.Ok?;
    var expected := EntryRow(FoodEntry(lid, fid, 1.0));
    forall a | a in Attrs(FoodEntryKind) ensures Get(row.value, a) == Get(expected, a) {
    }
    RowExtensionality(row.value, expected);
  }

  /** A food entry input that leaves quantity unset gets the column default
      1.0; it is inserted exactly when its log and its food exist. */
  lemma CreateFoodEntryDefaultQuantity(s: Store, input: Instance, today: Day)
    requires Valid(s)
    requires input.schema == FoodEntryBase && Validated(input)
    requires !input.slots[Quantity].isSet
    ensures input.slots[DailyLogId].value.Int? && input.slots[FoodId].value.Int?
    ensures var r := Create(s, FoodEntryKind, input, today);
      var entry := FoodEntry(input.slots[DailyLogId].value.n, input.slots[FoodId].value.n, 1.0);
      && (r.Ok? <==> entry.dailyLogId in s.logs.rows && entry.foodId in s.foods.rows)
      && (r.Ok? ==> r.value.record.row == EntryRow(entry))
  {
    FoodEntryDefaultRow(input, today);
    var expected := EntryRow(FoodEntry(input.slots[DailyLogId].value.n, input.slots[FoodId].value.n, 1.0));
    assert Create(s, FoodEntryKind, input, today) == Commit(s, Next(s, FoodEntryKind), expected);
  }

  /** An object just created is what `get_one` returns for its key. */
  lemma CreateThenGetById(s: Store, k: Kind, input: Instance, today: Day)
    requires Valid(s)
    requires Create(s, k, input, today).Ok?
    ensures var w := Create(s, k, input, today).value;
      GetOne(w.store, k, [], map[PrimaryKey := Int(w.record.id)]) == Ok(Some(w.record))
  {
    var w := Create(s, k, input, today).value;
    GetById(w.store, k, w.record.id);
  }

  /** `get_one` filtered by key finds the row with that key, or None. */
  lemma GetById(s: Store, k: Kind, id: int)
    requires Valid(s)
    ensures GetOne(s, k, [], map[PrimaryKey := Int(id)]) ==
      Ok(if Lookup(s, k, id).Some? then Some(Record(id, Lookup(s, k, id).value)) else None)
  {
    var kw := map[PrimaryKey := Int(id)];
    forall j | Hit(s, k, j, [], kw) ensures j == id {
      assert SameValue(ColumnOf(Record(j, Lookup(s, k, j).value), PrimaryKey).value, kw[PrimaryKey]);
    }
    if Lookup(s, k, id).Some? {
      assert Hit(s, k, id, [], kw);
    }
  }

  // ---------------------------------------------------------------------------
  // create_with_user
  // ---------------------------------------------------------------------------

  /** The four create schemas never get through `create_with_user`: a daily
      log input always carries `user_id`, which is then passed twice, and
      every other input carries a column the class does not have (or, for a
      daily log, one it does not have besides `user_id`). */
  lemma CreateWithUserRejectsCreateInputs(s: Store, k: Kind, input: Instance, owner: int, today: Day)
    requires input.schema in {UserBase, FoodBase, DailyLogBase, FoodEntryBase} && Validated(input)
    ensures var r := CreateWithUser(s, k, input, owner, today);
      && r.Err?
      && (input.schema == DailyLogBase ==> r == Err(DuplicateKeyword))
  {
    if input.schema == DailyLogBase {
      RequiredFieldDumped(input, UserId);
    } else if input.schema == UserBase {
      RequiredForeignColumn(s, k, input, owner, today, Username);
    } else if input.schema == FoodBase {
      RequiredForeignColumn(s, k, input, owner, today, Name);
    } else {
      RequiredForeignColumn(s, k, input, owner, today, DailyLogId);
    }
  }

  /** A required column a daily log does not have stops `create_with_user`. */
  lemma RequiredForeignColumn(s: Store, k: Kind, input: Instance, owner: int, today: Day, a: Attr)
    requires Validated(input)
    requires a in input.schema && input.schema[a].default.None? && !input.schema[a].optional
    requires a !in Attrs(DailyLogKind)
    ensures CreateWithUser(s, k, input, owner, today).Err?
  {
    RequiredFieldDumped(input, a);
    CreateWithUserForeignColumn(s, k, input, owner, today, a);
  }

  /** A field with no default that admits no None is always kept by
      `model_dump(exclude_none=True, exclude_unset=True, exclude_defaults=True)`. */
  lemma RequiredFieldDumped(input: Instance, a: Attr)
    requires Validated(input)
    requires a in input.schema && input.schema[a].default.None? && !input.schema[a].optional
    ensures a in input.slots && Kept(input, a, true, true, true)
    ensures a in Dump(input, true, true, true)
  {
  }

  /** An input that keeps a column other than `user_id` which a daily log
      does not have never gets through `create_with_user`. */
  lemma CreateWithUserForeignColumn(s: Store, k: Kind, input: Instance, owner: int, today: Day, a: Attr)
    requires a in Dump(input, true, true, true) && a !in Attrs(DailyLogKind)
    ensures CreateWithUser(s, k, input, owner, today).Err?
  {
    if k == DailyLogKind && UserId !in Dump(input, true, true, true) {
      var kw' := Dump(input, true, true, true)[UserId := Int(owner)];
      assert a in kw';
      assert Construct(k, kw', today) == Err(InvalidKeyword);
    }
  }

  // ---------------------------------------------------------------------------
  // update
  // ---------------------------------------------------------------------------

  /** An input with no field set changes nothing and returns the object. */
  lemma UpdateNothingSetIsNoOp(s: Store, k: Kind, id: int, input: Instance)
    requires Lookup(s, k, id).Some?
    requires forall a | a in input.slots :: !input.slots[a].isSet
    ensures Update(s, k, id, input) == Ok(Written(s, Record(id, Lookup(s, k, id).value)))
  {
    var current := Lookup(s, k, id).value;
    assert Dump(input, true, false, false) == map[];
    AssignSameValues(current, map[]);
  }

  /** A user update always writes both columns, since neither field has a
      default: a None is a NOT NULL violation, and otherwise the update goes
      through exactly when no other user has the new username or email. */
  lemma UpdateUserWritesBoth(s: Store, id: int, input: Instance)
    requires Valid(s) && id in s.users.rows
    requires input.schema == UserUpdate && Validated(input)
    ensures var r := Update(s, UserKind, id, input);
      var name := input.slots[Username].value;
      var email := input.slots[Email].value;
      && (name != Null ==> name.Str? && |name.s| >= 1)
      && (email != Null ==> email.Str?)
      && (name == Null || email == Null ==> r == Err(NotNullViolation))
      && (name != Null && email != Null ==>
            && (r.Ok? <==> forall j | j in s.users.rows && j != id ::
                  Str(s.users.rows[j].username) != name && Str(s.users.rows[j].email) != email)
            && (r.Ok? ==> r.value.record.row == UserRow(User(name.s, email.s))))
  {
    assert Username in input.slots && Email in input.slots;
    assert Given(input, Username) && Given(input, Email);
    var r := Update(s, UserKind, id, input);
    var name := input.slots[Username].value;
    var email := input.slots[Email].value;
    if name != Null && email != Null {
      var current := s.users.rows[id];
      var row := Assign(UserRow(current), Dump(input, true, false, false));
      assert row.Ok?;
      assert Get(row.value, Username) == Some(name) && Get(row.value, Email) == Some(email);
      assert row.value == UserRow(User(name.s, email.s));
      if row.value != UserRow(current) {
        PutValid(s, id, row.value);
      }
      if r.Ok? {
        assert Get(r.value.record.row, Username) == Some(name);
        assert Get(r.value.record.row, Email) == Some(email);
      }
    }
  }

  /** A food entry update always writes quantity: None is a NOT NULL
      violation; a number replaces the quantity and nothing else. */
  lemma UpdateFoodEntryQuantity(s: Store, id: int, input: Instance)
    requires Valid(s) && id in s.entries.rows
    requires input.schema == FoodEntryUpdate && Validated(input)
    ensures var r := Update(s, FoodEntryKind, id, input);
      var q := input.slots[Quantity].value;
      && (q == Null ==> r == Err(NotNullViolation))
      && (q != Null ==> q.Num? && q.x > 0.0)
      && (q != Null ==> r.Ok? && r.value.record.row == EntryRow(s.entries.rows[id].(quantity := q.x)))
  {
    assert Quantity in input.slots && Given(input, Quantity);
    var q := input.slots[Quantity].value;
    if q != Null {
      assert q.Num?;
      var row := EntryRow(s.entries.rows[id].(quantity := q.x));
      assert Given(input, Quantity) && !Given(input, DailyLogId) && !Given(input, FoodId);
      UpdateSucceeds(s, FoodEntryKind, id, input, row);
    }
  }

  /** A food update always writes name, manufacturer and unit, which have no
      default: a None among them is a NOT NULL violation.  A numeric field
      left unset keeps the stored value, whatever its default says. */
  lemma UpdateFoodWritesRequiredFields(s: Store, id: int, input: Instance)
    requires id in s.foods.rows
    requires input.schema == FoodUpdate && Validated(input)
    ensures forall a | a in {Name, Manufacturer, Unit} :: Given(input, a)
    ensures var r := Update(s, FoodKind, id, input);
      && ((exists a | a in {Name, Manufacturer, Unit} :: input.slots[a].value == Null) ==> r == Err(NotNullViolation))
      && (r.Ok? ==> forall a | a in Attrs(FoodKind) ::
            Get(r.value.record.row, a) ==
              if Given(input, a) then Some(input.slots[a].value) else Get(FoodRow(s.foods.rows[id]), a))
  {
    forall a | a in {Name, Manufacturer, Unit} ensures Given(input, a) {
      assert a in FoodUpdate;
    }
  }

  // ---------------------------------------------------------------------------
  // delete
  // ---------------------------------------------------------------------------

  /** Deleting a user removes the user, every log it owns and every entry of
      those logs; every other row is kept. */
  lemma DeleteUserCascades(s: Store, uid: int)
    requires Valid(s) && uid in s.users.rows
    ensures var r := Delete(s, UserKind, uid);
      && r.Ok?
      && (forall u :: Lookup(r.value.store, UserKind, u) == if u == uid then None else Lookup(s, UserKind, u))
      && (forall f :: Lookup(r.value.store, FoodKind, f) == Lookup(s, FoodKind, f))
      && (forall l :: Lookup(r.value.store, DailyLogKind, l) ==
            if l in s.logs.rows && s.logs.rows[l].userId == uid then None else Lookup(s, DailyLogKind, l))
      && (forall e :: Lookup(r.value.store, FoodEntryKind, e) ==
            if e in s.entries.rows && s.entries.rows[e].dailyLogId in s.logs.rows
               && s.logs.rows[s.entries.rows[e].dailyLogId].userId == uid
            then None else Lookup(s, FoodEntryKind, e))
  {
  }

  /** Deleting a log removes it and its entries; every other row is kept. */
  lemma DeleteDailyLogCascades(s: Store, lid: int)
    requires Valid(s) && lid in s.logs.rows
    ensures var r := Delete(s, DailyLogKind, lid);
      && r.Ok?
      && (forall u :: Lookup(r.value.store, UserKind, u) == Lookup(s, UserKind, u))
      && (forall f :: Lookup(r.value.store, FoodKind, f) == Lookup(s, FoodKind, f))
      && (forall l :: Lookup(r.value.store, DailyLogKind, l) == if l == lid then None else Lookup(s, DailyLogKind, l))
      && (forall e :: Lookup(r.value.store, FoodEntryKind, e) ==
            if e in s.entries.rows && s.entries.rows[e].dailyLogId == lid then None else Lookup(s, FoodEntryKind, e))
  {
  }

  /** After a user is deleted, `get_one` by key finds none of its logs and
      none of their entries. */
  lemma DeleteUserThenGetOne(s: Store, uid: int, lid: int, eid: int)
    requires Valid(s) && uid in s.users.rows
    requires lid in s.logs.rows && s.logs.rows[lid].userId == uid
    requires eid in s.entries.rows && s.entries.rows[eid].dailyLogId == lid
    ensures var s' := Delete(s, UserKind, uid).value.store;
      && GetOne(s', UserKind, [], map[PrimaryKey := Int(uid)]) == Ok(None)
      && GetOne(s', DailyLogKind, [], map[PrimaryKey := Int(lid)]) == Ok(None)
      && GetOne(s', FoodEntryKind, [], map[PrimaryKey := Int(eid)]) == Ok(None)
  {
    DeleteUserCascades(s, uid);
    var s' := Delete(s, UserKind, uid).value.store;
    GetById(s', UserKind, uid);
    GetById(s', DailyLogKind, lid);
    GetById(s', FoodEntryKind, eid);
  }

  // ---------------------------------------------------------------------------
  // queries
  // ---------------------------------------------------------------------------

  /** The keys of the rows of table `k` that match the filters. */
  function MatchingIds(s: Store, k: Kind, preds: seq<Filter>, kw: map<Column, Value>): set<int> {
    set j | 1 <= j < Next(s, k) && Hit(s, k, j, preds, kw)
  }

  function IdsOf(rs: seq<Record>): set<int> {
    set i | 0 <= i < |rs| :: rs[i].id
  }

  /** A sequence of records with pairwise distinct keys has as many keys as records. */
  lemma {:induction false} DistinctIdsCount(rs: seq<Record>)
    requires forall i, j | 0 <= i < j < |rs| :: rs[i].id != rs[j].id
    ensures |IdsOf(rs)| == |rs|
  {
    if |rs| > 0 {
      var tail := rs[1..];
      DistinctIdsCount(tail);
      assert IdsOf(rs) == {rs[0].id} + IdsOf(tail) by {
        forall x | x in IdsOf(rs) ensures x in {rs[0].id} + IdsOf(tail) {
          var i :| 0 <= i < |rs| && rs[i].id == x;
          if i > 0 {
            assert tail[i - 1].id == x;
          }
        }
      }
      assert rs[0].id !in IdsOf(tail);
    }
  }

  /** `get_many` returns min(limit, number of matching rows) rows, and every
      matching row when there is no limit. */
  lemma GetManyCount(s: Store, k: Kind, limit: Limit, preds: seq<Filter>, kw: map<Column, Value>)
    requires Valid(s)
    requires GetMany(s, k, limit, preds, kw).Ok?
    ensures var rs := GetMany(s, k, limit, preds, kw).value;
      var matches := |MatchingIds(s, k, preds, kw)|;
      && (limit.NoLimit? ==> |rs| == matches)
      && (limit.AtMost? ==> |rs| == if limit.n < matches then limit.n else matches)
  {
    var rs := GetMany(s, k, limit, preds, kw).value;
    var ms := MatchingIds(s, k, preds, kw);
    DistinctIdsCount(rs);
    assert IdsOf(rs) <= ms by {
      forall x | x in IdsOf(rs) ensures x in ms {
        var i :| 0 <= i < |rs| && rs[i].id == x;
        assert Lookup(s, k, x) == Some(rs[i].row);
        assert Hit(s, k, x, preds, kw);
      }
    }
    assert |IdsOf(rs)| <= |ms| by {
      SubsetCount(IdsOf(rs), ms);
    }
    if limit.NoLimit? || |rs| < limit.n {
      assert ms <= IdsOf(rs) by {
        forall x | x in ms ensures x in IdsOf(rs) {
          var rec := Record(x, Lookup(s, k, x).value);
          assert rec in rs;
          var i :| 0 <= i < |rs| && rs[i] == rec;
        }
      }
      SubsetCount(ms, IdsOf(rs));
    }
  }

  lemma SubsetCount(a: set<int>, b: set<int>)
    requires a <= b
    ensures |a| <= |b|
  {
    assert b == a + (b - a);
  }

  /** `get_many_from_user` without positional conditions keeps exactly the
      rows `get_many` keeps that belong to the user. */
  lemma GetManyFromUserOwned(s: Store, limit: Limit, owner: int, kw: map<Column, Value>)
    requires Valid(s)
    requires GetManyFromUser(s, DailyLogKind, limit, owner, [], kw).Ok?
    ensures var rs := GetManyFromUser(s, DailyLogKind, limit, owner, [], kw).value;
      && (forall i | 0 <= i < |rs| :: rs[i].row.log.userId == owner && rs[i].id in s.logs.rows)
      && (limit.NoLimit? ==> forall l | l in s.logs.rows && s.logs.rows[l].userId == owner
            && Matches(Record(l, LogRow(s.logs.rows[l])), [], kw) :: Record(l, LogRow(s.logs.rows[l])) in rs)
  {
    var rs := GetManyFromUser(s, DailyLogKind, limit, owner, [], kw).value;
    var kw' := kw[Attribute(UserId) := Int(owner)];
    forall i | 0 <= i < |rs| ensures rs[i].row.log.userId == owner && rs[i].id in s.logs.rows {
      assert Get(rs[i].row, UserId) == Some(Int(owner));
    }
    if limit.NoLimit? {
      forall l | l in s.logs.rows && s.logs.rows[l].userId == owner && Matches(Record(l, LogRow(s.logs.rows[l])), [], kw)
        ensures Record(l, LogRow(s.logs.rows[l])) in rs
      {
        var rec := Record(l, LogRow(s.logs.rows[l]));
        forall c | c in kw' ensures ColumnOf(rec, c).Some? && SameValue(ColumnOf(rec, c).value, kw'[c]) {
          if c != Attribute(UserId) {
            assert c in kw;
          }
        }
        assert Hit(s, DailyLogKind, l, [], kw');
      }
    }
  }

  // ---------------------------------------------------------------------------
  // A session
  // ---------------------------------------------------------------------------

  function UserInput(name: string, email: string): Instance {
    Instance(UserBase, map[Username := Slot(Str(name), true), Email := Slot(Str(email), true)])
  }

  /** A user input with both fields given builds the user it names. */
  lemma UserInputRow(name: string, email: string, today: Day)
    ensures forall s ::
      Create(s, UserKind, UserInput(name, email), today) == Commit(s, Next(s, UserKind), UserRow(User(name, email)))
  {
    var kw := Dump(UserInput(name, email), true, true, false);
    assert kw == map[Username := Str(name), Email := Str(email)];
    var row := Construct(UserKind, kw, today);
    assert row.Ok?;
    RowExtensionality(row.value, UserRow(User(name, email)));
  }

  /** In an empty database, creating alice gives her key 1 and her values;
      creating a second alice then fails on the unique username. */
  lemma AliceScenario(today: Day)
    ensures var r := Create(Empty, UserKind, UserInput("alice", "alice@example.com"), today);
      && r == Ok(Written(Put(Empty, 1, UserRow(User("alice", "alice@example.com"))),
                         Record(1, UserRow(User("alice", "alice@example.com")))))
      && Create(r.value.store, UserKind, UserInput("alice", "alice2@example.com"), today) == Err(UniqueViolation)
  {
    UserInputRow("alice", "alice@example.com", today);
    UserInputRow("alice", "alice2@example.com", today);
    var s1 := Put(Empty, 1, UserRow(User("alice", "alice@example.com")));
    assert s1.users.rows[1].username == "alice";
    assert !UniqueOk(s1, Next(s1, UserKind), UserRow(User("alice", "alice2@example.com")));
  }
}

=== FILE: records.dfy ===
// The four mapped classes of the data model as immutable records, the column
// defaults, and the two ways the ORM fills a record: the keyword constructor
// and attribute assignment.

module Records {
  import opened Values

  datatype User = User(username: string, email: string)

  datatype Food = Food(
    name: string,
    manufacturer: string,
    servingSize: real,
    unit: string,
    calories: real,
    protein: real,
    carbs: real,
    fat: real)

  datatype DailyLog = DailyLog(date: Day, userId: int)

  datatype FoodEntry = FoodEntry(dailyLogId: int, foodId: int, quantity: real)

  /** A row of any of the four tables; its key lives in the table, not here. */
  datatype Row =
    | UserRow(user: User)
    | FoodRow(food: Food)
    | LogRow(log: DailyLog)
    | EntryRow(entry: FoodEntry)

  function KindOf(r: Row): Kind {
    match r
    case UserRow(_) => UserKind
    case FoodRow(_) => FoodKind
    case LogRow(_) => DailyLogKind
    case EntryRow(_) => FoodEntryKind
  }

  /** The value a row holds in column `a`, or None when its table has no such column.
      Every column is NOT NULL, so a stored value is never `Null`. */
  function Get(r: Row, a: Attr): (v: Option<Value>)
    ensures v.Some? <==> a in Attrs(KindOf(r))
    ensures v.Some? ==> HasType(v.value, TypeOf(a))
  {
    match r
    case UserRow(u) =>
      (match a
       case Username => Some(Str(u.username))
       case Email => Some(Str(u.email))
       case _ => None)
    case FoodRow(f) =>
      (match a
       case Name => Some(Str(f.name))
       case Manufacturer => Some(Str(f.manufacturer))
       case ServingSize => Some(Num(f.servingSize))
       case Unit => Some(Str(f.unit))
       case Calories => Some(Num(f.calories))
       case Protein => Some(Num(f.protein))
       case Carbs => Some(Num(f.carbs))
       case Fat => Some(Num(f.fat))
       case _ => None)
    case LogRow(l) =>
      (match a
       case LogDate => Some(Date(l.date))
       case UserId => Some(Int(l.userId))
       case _ => None)
    case EntryRow(e) =>
      (match a
       case DailyLogId => Some(Int(e.dailyLogId))
       case FoodId => Some(Int(e.foodId))
       case Quantity => Some(Num(e.quantity))
       case _ => None)
  }

  /** Two rows of the same table that agree on every column are the same row. */
  lemma {:induction false} RowExtensionality(r1: Row, r2: Row)
    requires KindOf(r1) == KindOf(r2)
    requires forall a | a in Attrs(KindOf(r1)) :: Get(r1, a) == Get(r2, a)
    ensures r1 == r2
  {
    match r1
    case UserRow(u) =>
      assert Get(r1, Username) == Get(r2, Username);
      assert Get(r1, Email) == Get(r2, Email);
    case FoodRow(f) =>
      assert Get(r1, Name) == Get(r2, Name);
      assert Get(r1, Manufacturer) == Get(r2, Manufacturer);
      assert Get(r1, ServingSize) == Get(r2, ServingSize);
      assert Get(r1, Unit) == Get(r2, Unit);
      assert Get(r1, Calories) == Get(r2, Calories);
      assert Get(r1, Protein) == Get(r2, Protein);
      assert Get(r1, Carbs) == Get(r2, Carbs);
      assert Get(r1, Fat) == Get(r2, Fat);
    case LogRow(l) =>
      assert Get(r1, LogDate) == Get(r2, LogDate);
      assert Get(r1, UserId) == Get(r2, UserId);
    case EntryRow(e) =>
      assert Get(r1, DailyLogId) == Get(r2, DailyLogId);
      assert Get(r1, FoodId) == Get(r2, FoodId);
      assert Get(r1, Quantity) == Get(r2, Quantity);
  }

  /** The Python-side column defaults: `date` takes today's date and
      `quantity` takes 1.0; no other column has one. */
  function ColumnDefault(a: Attr, today: Day): (d: Option<Value>)
    ensures d.Some? <==> a in {LogDate, Quantity}
    ensures d.Some? ==> HasType(d.value, TypeOf(a))
  {
    match a
    case LogDate => Some(Date(today))
    case Quantity => Some(Num(1.0))
    case _ => None
  }

  // Total projections out of a Value, used once the type is known.
  function StrOf(v: Value): string { if v.Str? then v.s else "" }
  function NumOf(v: Value): real { if v.Num? then v.x else 0.0 }
  function IntOf(v: Value): int { if v.Int? then v.n else 0 }
  function DayOf(v: Value): Day { if v.Date? then v.day else 0 }
  function At(m: map<Attr, Value>, a: Attr): Value { if a in m then m[a] else Null }

  /** Whether a column map holds a value for every column of the table. */
  predicate Complete(k: Kind, m: map<Attr, Value>) {
    forall a | a in Attrs(k) :: a in m && m[a] != Null
  }

  /** Whether every column of the table that the map holds has the column's type. */
  predicate WellTyped(k: Kind, m: map<Attr, Value>) {
    forall a | a in Attrs(k) && a in m :: HasType(m[a], TypeOf(a))
  }

  /** The row the INSERT or UPDATE statement writes, given the value of every
      column: a missing or NULL value breaks the column's NOT NULL
      constraint, and a value of another type is refused by the database. */
  function Build(k: Kind, m: map<Attr, Value>): (r: Result<Row>)
    ensures r.Ok? <==> Complete(k, m) && WellTyped(k, m)
    ensures r == Err(NotNullViolation) <==> !Complete(k, m)
    ensures r.Ok? ==> KindOf(r.value) == k
    ensures r.Ok? ==> forall a | a in Attrs(k) :: Get(r.value, a) == Some(m[a])
  {
    if !Complete(k, m) then Err(NotNullViolation)
    else if !WellTyped(k, m) then Err(WrongType)
    else
      var row := match k
        case UserKind => UserRow(User(StrOf(At(m, Username)), StrOf(At(m, Email))))
        case FoodKind => FoodRow(Food(
          StrOf(At(m, Name)), StrOf(At(m, Manufacturer)), NumOf(At(m, ServingSize)),
          StrOf(At(m, Unit)), NumOf(At(m, Calories)), NumOf(At(m, Protein)),
          NumOf(At(m, Carbs)), NumOf(At(m, Fat))))
        case DailyLogKind => LogRow(DailyLog(DayOf(At(m, LogDate)), IntOf(At(m, UserId))))
        case FoodEntryKind => EntryRow(FoodEntry(
          IntOf(At(m, DailyLogId)), IntOf(At(m, FoodId)), NumOf(At(m, Quantity))));
      Ok(row)
  }

  /** The values the INSERT statement carries: a keyword that is None is
      left out of the statement like a missing one, so a column either
      takes a non-None keyword value or its column default. */
  function WithDefaults(k: Kind, kw: map<Attr, Value>, today: Day): map<Attr, Value> {
    map a | a in Attrs(k) && ((a in kw && kw[a] != Null) || ColumnDefault(a, today).Some?) ::
      if a in kw && kw[a] != Null then kw[a] else ColumnDefault(a, today).value
  }

  /** `Model(**kw)` followed by the INSERT: a keyword that is not a column of
      the class raises; a column left out or given None takes its default
      if it has one, and every other column takes the keyword's value. */
  function Construct(k: Kind, kw: map<Attr, Value>, today: Day): (r: Result<Row>)
    ensures r == Err(InvalidKeyword) <==> !(kw.Keys <= Attrs(k))
    ensures r.Ok? <==>
      && kw.Keys <= Attrs(k)
      && (forall a | a in kw && kw[a] != Null :: HasType(kw[a], TypeOf(a)))
      && (forall a | a in Attrs(k) && (a !in kw || kw[a] == Null) :: ColumnDefault(a, today).Some?)
    ensures r.Ok? ==> KindOf(r.value) == k
    ensures r.Ok? ==> forall a | a in Attrs(k) ::
      Get(r.value, a) == (if a in kw && kw[a] != Null then Some(kw[a]) else ColumnDefault(a, today))
  {
    if !(kw.Keys <= Attrs(k)) then Err(InvalidKeyword)
    else Build(k, WithDefaults(k, kw, today))
  }

  /** `setattr(obj, a, v)` for every pair of `kw`, then the UPDATE: a column
      of the class takes the new value, and a name that is not a mapped
      column becomes a plain Python attribute the database never sees. */
  function Assign(r: Row, kw: map<Attr, Value>): (r': Result<Row>)
    ensures r'.Ok? <==> forall a | a in kw && a in Attrs(KindOf(r)) :: HasType(kw[a], TypeOf(a))
    ensures r'.Err? && (exists a | a in kw && a in Attrs(KindOf(r)) :: kw[a] == Null) ==>
      r'.error == NotNullViolation
    ensures r'.Ok? ==> KindOf(r'.value) == KindOf(r)
    ensures r'.Ok? ==> forall a | a in Attrs(KindOf(r)) ::
      Get(r'.value, a) == (if a in kw then Some(kw[a]) else Get(r, a))
  {
    var k := KindOf(r);
    Build(k, map a | a in Attrs(k) :: if a in kw then kw[a] else Get(r, a).value)
  }

  /** Assigning every column the value it already holds yields the same row. */
  lemma AssignSameValues(r: Row, kw: map<Attr, Value>)
    requires forall a | a in kw && a in Attrs(KindOf(r)) :: Get(r, a) == Some(kw[a])
    ensures Assign(r, kw) == Ok(r)
  {
    var r' := Assign(r, kw);
    assert r'.Ok?;
    RowExtensionality(r'.value, r);
  }
}

=== FILE: schema.dfy ===
// The validation schemas: a schema is a set of typed fields with optional
// defaults and range constraints; an instance remembers which fields were
// set explicitly, and `model_dump` filters the fields by three flags.

module Schemas {
  import opened Values

  /** A field constraint: `min_length`, `gt` or `ge`. */
  datatype Bound = NoBound | MinLength(n: nat) | Above(lo: real) | AtLeast(lo: real)

  /** One declared field: its type, whether `Optional[...]` admits None,
      its default (None for a required field) and its constraint. */
  datatype FieldSpec = FieldSpec(ty: ValueType, optional: bool, default: Option<Value>, bound: Bound)

  type Schema = map<Attr, FieldSpec>

  /** A field of an instance: its value and whether the caller set it
      (membership in `model_fields_set`). */
  datatype Slot = Slot(value: Value, isSet: bool)

  datatype Instance = Instance(schema: Schema, slots: map<Attr, Slot>)

  /** A constraint holds of a non-null value. */
  predicate WithinBound(v: Value, b: Bound) {
    match b
    case NoBound => true
    case MinLength(n) => v.Str? ==> |v.s| >= n
    case Above(lo) => (v.Num? ==> v.x > lo) && (v.Int? ==> v.n as real > lo)
    case AtLeast(lo) => (v.Num? ==> v.x >= lo) && (v.Int? ==> v.n as real >= lo)
  }

  /** Whether validation accepts an explicitly given value for a field:
      None only for an Optional field, otherwise a value of the field's type
      within its constraint. */
  predicate Accepts(f: FieldSpec, v: Value) {
    if v == Null then f.optional else HasType(v, f.ty) && WithinBound(v, f.bound)
  }

  /** A validated instance: it has exactly the schema's fields, every field
      without a default was set, a field left unset holds its default (which
      is never validated), and every set value is accepted. */
  predicate Validated(i: Instance) {
    && i.slots.Keys == i.schema.Keys
    && forall a | a in i.slots ::
         if i.slots[a].isSet then Accepts(i.schema[a], i.slots[a].value)
         else i.schema[a].default == Some(i.slots[a].value)
  }

  /** Whether `model_dump(exclude_unset=.., exclude_none=.., exclude_defaults=..)`
      keeps field `a`. */
  predicate Kept(i: Instance, a: Attr, excludeUnset: bool, excludeNone: bool, excludeDefaults: bool)
    requires a in i.slots
  {
    && (excludeUnset ==> i.slots[a].isSet)
    && (excludeNone ==> i.slots[a].value != Null)
    && (excludeDefaults ==> a !in i.schema || i.schema[a].default != Some(i.slots[a].value))
  }

  /** `model_dump` with the three exclusion flags, as keyword arguments. */
  function Dump(i: Instance, excludeUnset: bool, excludeNone: bool, excludeDefaults: bool): (d: map<Attr, Value>)
    ensures d.Keys <= i.slots.Keys
    ensures forall a | a in d :: d[a] == i.slots[a].value
    ensures excludeUnset ==> forall a | a in d :: i.slots[a].isSet
    ensures excludeNone ==> forall a | a in d :: d[a] != Null
    ensures excludeDefaults ==> forall a | a in d && a in i.schema :: i.schema[a].default != Some(d[a])
    ensures forall a | a in i.slots && i.slots[a].isSet && i.slots[a].value != Null ::
      (a in i.schema ==> i.schema[a].default != Some(i.slots[a].value)) ==> a in d
    ensures !excludeUnset && !excludeNone && !excludeDefaults ==> d.Keys == i.slots.Keys
    ensures forall a | a in i.slots
      && (excludeUnset ==> i.slots[a].isSet)
      && (excludeNone ==> i.slots[a].value != Null)
      && (excludeDefaults ==> a !in i.schema || i.schema[a].default != Some(i.slots[a].value)) :: a in d
  {
    map a | a in i.slots && Kept(i, a, excludeUnset, excludeNone, excludeDefaults) :: i.slots[a].value
  }

  // Field declarations, as the schema classes write them.
  function Required(t: ValueType, b: Bound): FieldSpec { FieldSpec(t, false, None, b) }
  function RequiredOptional(t: ValueType, b: Bound): FieldSpec { FieldSpec(t, true, None, b) }
  function Defaulted(t: ValueType, d: Value, b: Bound): FieldSpec { FieldSpec(t, false, Some(d), b) }
  function DefaultedOptional(t: ValueType, d: Value, b: Bound): FieldSpec { FieldSpec(t, true, Some(d), b) }

  /** `UserBase`, and `UserCreate` which adds nothing to it. */
  const UserBase: Schema := map[
    Username := Required(StrType, MinLength(1)),
    Email := Required(StrType, NoBound)]

  /** `UserUpdate`: both fields admit None but, having no default, must be given. */
  const UserUpdate: Schema := map[
    Username := RequiredOptional(StrType, MinLength(1)),
    Email := RequiredOptional(StrType, NoBound)]

  /** `FoodBase`, and `FoodCreate` which adds nothing to it. */
  const FoodBase: Schema := map[
    Name := Required(StrType, MinLength(1)),
    Manufacturer := Required(StrType, MinLength(1)),
    ServingSize := Defaulted(NumType, Num(1.0), Above(0.0)),
    Unit := Required(StrType, MinLength(1)),
    Calories := Defaulted(NumType, Num(0.0), AtLeast(0.0)),
    Protein := Defaulted(NumType, Num(0.0), AtLeast(0.0)),
    Carbs := Defaulted(NumType, Num(0.0), AtLeast(0.0)),
    Fat := Defaulted(NumType, Num(0.0), AtLeast(0.0))]

  /** `FoodUpdate`: every field admits None; the string fields have no default. */
  const FoodUpdate: Schema := map[
    Name := RequiredOptional(StrType, MinLength(1)),
    Manufacturer := RequiredOptional(StrType, MinLength(1)),
    ServingSize := DefaultedOptional(NumType, Num(1.0), Above(0.0)),
    Unit := RequiredOptional(StrType, MinLength(1)),
    Calories := DefaultedOptional(NumType, Num(0.0), AtLeast(0.0)),
    Protein := DefaultedOptional(NumType, Num(0.0), AtLeast(0.0)),
    Carbs := DefaultedOptional(NumType, Num(0.0), AtLeast(0.0)),
    Fat := DefaultedOptional(NumType, Num(0.0), AtLeast(0.0))]

  /** `DailyLogBase`, and `DailyLogCreate` which adds nothing to it: no date field. */
  const DailyLogBase: Schema := map[
    UserId := Required(IntType, Above(0.0))]

  /** `FoodEntryBase`, and `FoodEntryCreate` which adds nothing to it. */
  const FoodEntryBase: Schema := map[
    DailyLogId := Required(IntType, Above(0.0)),
    FoodId := Required(IntType, Above(0.0)),
    Quantity := Defaulted(NumType, Num(1.0), Above(0.0))]

  /** `FoodEntryUpdate`: quantity admits None but, having no default, must be given. */
  const FoodEntryUpdate: Schema := map[
    Quantity := RequiredOptional(NumType, Above(0.0))]

  /** The seven input schemas of the model. */
  predicate InputSchema(sc: Schema) {
    sc in {UserBase, UserUpdate, FoodBase, FoodUpdate, DailyLogBase, FoodEntryBase, FoodEntryUpdate}
  }

  /** A valid user input carries a non-empty username and some email. */
  lemma ValidUserInput(i: Instance)
    requires i.schema == UserBase && Validated(i)
    ensures i.slots.Keys == {Username, Email}
    ensures i.slots[Username].isSet && i.slots[Email].isSet
    ensures i.slots[Username].value.Str? && |i.slots[Username].value.s| >= 1
    ensures i.slots[Email].value.Str?
  {
    assert Username in i.slots && Email in i.slots;
  }

  /** A valid food input carries non-empty name, manufacturer and unit, a
      positive serving size and non-negative macros; the numeric fields
      left unset hold 1.0 and 0. */
  lemma ValidFoodInput(i: Instance)
    requires i.schema == FoodBase && Validated(i)
    ensures forall a | a in {Name, Manufacturer, Unit} ::
      a in i.slots && i.slots[a].isSet && i.slots[a].value.Str? && |i.slots[a].value.s| >= 1
    ensures ServingSize in i.slots && i.slots[ServingSize].value.Num?
    ensures i.slots[ServingSize].isSet ==> i.slots[ServingSize].value.x > 0.0
    ensures !i.slots[ServingSize].isSet ==> i.slots[ServingSize].value == Num(1.0)
    ensures forall a | a in {Calories, Protein, Carbs, Fat} ::
      && a in i.slots && i.slots[a].value.Num?
      && (i.slots[a].isSet ==> i.slots[a].value.x >= 0.0)
      && (!i.slots[a].isSet ==> i.slots[a].value == Num(0.0))
  {
    forall a | a in {Name, Manufacturer, Unit}
      ensures a in i.slots && i.slots[a].isSet && i.slots[a].value.Str? && |i.slots[a].value.s| >= 1
    {
      assert a in FoodBase;
    }
    forall a | a in {Calories, Protein, Carbs, Fat}
      ensures && a in i.slots && i.slots[a].value.Num?
              && (i.slots[a].isSet ==> i.slots[a].value.x >= 0.0)
              && (!i.slots[a].isSet ==> i.slots[a].value == Num(0.0))
    {
      assert a in FoodBase;
    }
    assert ServingSize in FoodBase;
  }

  /** A valid food entry input carries positive log and food ids and a
      positive quantity, which is 1 when left unset. */
  lemma ValidFoodEntryInput(i: Instance)
    requires i.schema == FoodEntryBase && Validated(i)
    ensures i.slots.Keys == {DailyLogId, FoodId, Quantity}
    ensures i.slots[DailyLogId].value.Int? && i.slots[DailyLogId].value.n > 0
    ensures i.slots[FoodId].value.Int? && i.slots[FoodId].value.n > 0
    ensures i.slots[Quantity].value.Num? && i.slots[Quantity].value.x > 0.0
    ensures !i.slots[Quantity].isSet ==> i.slots[Quantity].value == Num(1.0)
  {
    assert DailyLogId in i.slots && FoodId in i.slots && Quantity in i.slots;
  }

  /** A valid daily log input carries only a positive user id, always set. */
  lemma ValidDailyLogInput(i: Instance)
    requires i.schema == DailyLogBase && Validated(i)
    ensures i.slots.Keys == {UserId}
    ensures i.slots[UserId].isSet && i.slots[UserId].value.Int? && i.slots[UserId].value.n > 0
  {
    assert UserId in i.slots;
  }

  /** Each exclusion flag only removes fields: a dump with more flags set is
      a sub-map of one with fewer. */
  lemma DumpMonotone(i: Instance, u1: bool, n1: bool, d1: bool, u2: bool, n2: bool, d2: bool)
    requires (u1 ==> u2) && (n1 ==> n2) && (d1 ==> d2)
    ensures Dump(i, u2, n2, d2).Keys <= Dump(i, u1, n1, d1).Keys
    ensures forall a | a in Dump(i, u2, n2, d2) :: Dump(i, u2, n2, d2)[a] == Dump(i, u1, n1, d1)[a]
  {
  }

  /** Every field of a schema has its column's type, and so has its default. */
  predicate FieldsTyped(sc: Schema) {
    forall a | a in sc ::
      && sc[a].ty == TypeOf(a)
      && (sc[a].default.Some? ==> HasType(sc[a].default.value, TypeOf(a)))
  }

  /** The seven input schemas declare every field with its column's type. */
  lemma InputSchemaTyped(sc: Schema)
    requires InputSchema(sc)
    ensures FieldsTyped(sc)
  {
    if sc == UserBase || sc == UserUpdate {
      UserSchemasTyped();
    } else if sc == FoodBase || sc == FoodUpdate {
      FoodSchemasTyped();
    } else {
      LogAndEntrySchemasTyped();
    }
  }

  lemma UserSchemasTyped()
    ensures FieldsTyped(UserBase) && FieldsTyped(UserUpdate)
  {
  }

  lemma FoodSchemasTyped()
    ensures FieldsTyped(FoodBase) && FieldsTyped(FoodUpdate)
  {
  }

  lemma LogAndEntrySchemasTyped()
    ensures FieldsTyped(DailyLogBase) && FieldsTyped(FoodEntryBase) && FieldsTyped(FoodEntryUpdate)
  {
  }

  /** Validation leaves an input of the seven schemas holding, in each field,
      None (for an Optional field) or a value of the field's column type. */
  lemma ValidatedWellTyped(i: Instance)
    requires InputSchema(i.schema) && Validated(i)
    ensures forall a | a in i.slots && i.slots[a].value != Null :: HasType(i.slots[a].value, TypeOf(a))
    ensures forall a | a in i.slots && i.slots[a].value == Null :: i.schema[a].optional
  {
    InputSchemaTyped(i.schema);
  }
}

=== FILE: store.dfy ===
// The database state: four tables keyed by surrogate id, the integrity rules
// the schema declares (unique columns, the one-log-per-day pair, foreign
// keys), and the writes the ORM issues, including the cascade from a user to
// its logs and from a log to its entries.

module Storage {
  import opened Values
  import opened Records

  /** A table: its rows by id, and the next value of its id sequence. */
  datatype Table<T> = Table(rows: map<int, T>, next: int) {
    /** Every id was drawn from the sequence, which starts at 1. */
    predicate Keyed() {
      1 <= next && forall id | id in rows :: 1 <= id < next
    }

    /** Writes a row at `id`, advancing the sequence past it. */
    function Set(id: int, x: T): (t: Table<T>)
      ensures Keyed() && 1 <= id ==> t.Keyed()
      ensures id in t.rows && t.rows[id] == x
      ensures forall j | j in rows && j != id :: j in t.rows && t.rows[j] == rows[j]
      ensures t.rows.Keys == rows.Keys + {id}
    {
      Table(rows[id := x], if id < next then next else id + 1)
    }
  }

  datatype Store = Store(
    users: Table<User>,
    foods: Table<Food>,
    logs: Table<DailyLog>,
    entries: Table<FoodEntry>)

  /** The freshly created, empty database. */
  const Empty := Store(Table(map[], 1), Table(map[], 1), Table(map[], 1), Table(map[], 1))

  /** The row of table `k` with key `id`, if any. */
  function Lookup(s: Store, k: Kind, id: int): (r: Option<Row>)
    ensures r.Some? ==> KindOf(r.value) == k
  {
    match k
    case UserKind => if id in s.users.rows then Some(UserRow(s.users.rows[id])) else None
    case FoodKind => if id in s.foods.rows then Some(FoodRow(s.foods.rows[id])) else None
    case DailyLogKind => if id in s.logs.rows then Some(LogRow(s.logs.rows[id])) else None
    case FoodEntryKind => if id in s.entries.rows then Some(EntryRow(s.entries.rows[id])) else None
  }

  /** The next id the sequence of table `k` hands out. */
  function Next(s: Store, k: Kind): int {
    match k
    case UserKind => s.users.next
    case FoodKind => s.foods.next
    case DailyLogKind => s.logs.next
    case FoodEntryKind => s.entries.next
  }

  // ---------------------------------------------------------------------------
  // Integrity rules
  // ---------------------------------------------------------------------------

  /** `users.username` and `users.email` are unique. */
  predicate UniqueUsers(m: map<int, User>) {
    forall i, j | i in m && j in m && i != j ::
      m[i].username != m[j].username && m[i].email != m[j].email
  }

  /** `foods.name` and `foods.manufacturer` are unique. */
  predicate UniqueFoods(m: map<int, Food>) {
    forall i, j | i in m && j in m && i != j ::
      m[i].name != m[j].name && m[i].manufacturer != m[j].manufacturer
  }

  /** `_user_date_uc`: a user has at most one log per date. */
  predicate OneLogPerDay(m: map<int, DailyLog>) {
    forall i, j | i in m && j in m && i != j ::
      m[i].userId != m[j].userId || m[i].date != m[j].date
  }

  /** `daily_logs.user_id` references `users.id`. */
  predicate LogOwnersExist(s: Store) {
    forall i | i in s.logs.rows :: s.logs.rows[i].userId in s.users.rows
  }

  /** `food_entries.daily_log_id` and `food_entries.food_id` reference their tables. */
  predicate EntryRefsExist(s: Store) {
    forall i | i in s.entries.rows ::
      s.entries.rows[i].dailyLogId in s.logs.rows && s.entries.rows[i].foodId in s.foods.rows
  }

  /** The store invariant: every declared constraint holds. */
  predicate Valid(s: Store) {
    && s.users.Keyed() && s.foods.Keyed() && s.logs.Keyed() && s.entries.Keyed()
    && UniqueUsers(s.users.rows)
    && UniqueFoods(s.foods.rows)
    && OneLogPerDay(s.logs.rows)
    && LogOwnersExist(s)
    && EntryRefsExist(s)
  }

  /** Row `row` at key `id` clashes with no other row on a unique column. */
  predicate UniqueOk(s: Store, id: int, row: Row) {
    match row
    case UserRow(u) =>
      forall j | j in s.users.rows && j != id ::
        s.users.rows[j].username != u.username && s.users.rows[j].email != u.email
    case FoodRow(f) =>
      forall j | j in s.foods.rows && j != id ::
        s.foods.rows[j].name != f.name && s.foods.rows[j].manufacturer != f.manufacturer
    case LogRow(l) =>
      forall j | j in s.logs.rows && j != id ::
        s.logs.rows[j].userId != l.userId || s.logs.rows[j].date != l.date
    case EntryRow(_) => true
  }

  /** Every foreign key of `row` names an existing row. */
  predicate RefsOk(s: Store, row: Row) {
    match row
    case UserRow(_) => true
    case FoodRow(_) => true
    case LogRow(l) => l.userId in s.users.rows
    case EntryRow(e) => e.dailyLogId in s.logs.rows && e.foodId in s.foods.rows
  }

  /** The error the database raises when writing `row` at `id`: the unique
      index is checked as the row is written, the foreign keys after it. */
  function Violation(s: Store, id: int, row: Row): (e: Option<Error>)
    ensures e.None? <==> UniqueOk(s, id, row) && RefsOk(s, row)
    ensures e.Some? ==> e.value in {UniqueViolation, ForeignKeyViolation}
  {
    if !UniqueOk(s, id, row) then Some(UniqueViolation)
    else if !RefsOk(s, row) then Some(ForeignKeyViolation)
    else None
  }

  // ---------------------------------------------------------------------------
  // Writes
  // ---------------------------------------------------------------------------

  /** Writes `row` at key `id` of its table; nothing else changes. */
  function Put(s: Store, id: int, row: Row): (s': Store)
    ensures Lookup(s', KindOf(row), id) == Some(row)
    ensures forall k, j | k != KindOf(row) || j != id :: Lookup(s', k, j) == Lookup(s, k, j)
  {
    match row
    case UserRow(u) => s.(users := s.users.Set(id, u))
    case FoodRow(f) => s.(foods := s.foods.Set(id, f))
    case LogRow(l) => s.(logs := s.logs.Set(id, l))
    case EntryRow(e) => s.(entries := s.entries.Set(id, e))
  }

  /** Writing a row back at its own key in a valid store changes nothing. */
  lemma PutSame(s: Store, id: int, row: Row)
    requires Valid(s) && Lookup(s, KindOf(row), id) == Some(row)
    ensures Put(s, id, row) == s
  {
    match row
    case UserRow(u) => assert s.users.rows[id := u] == s.users.rows;
    case FoodRow(f) => assert s.foods.rows[id := f] == s.foods.rows;
    case LogRow(l) => assert s.logs.rows[id := l] == s.logs.rows;
    case EntryRow(e) => assert s.entries.rows[id := e] == s.entries.rows;
  }

  /** Writing a row keeps the store valid exactly when the row clashes with
      no other row and its foreign keys hold. */
  lemma {:induction false} PutValid(s: Store, id: int, row: Row)
    ensures Valid(s) && 1 <= id ==>
      (Valid(Put(s, id, row)) <==> UniqueOk(s, id, row) && RefsOk(s, row))
  {
    if !(Valid(s) && 1 <= id) {
      return;
    }
    var s' := Put(s, id, row);
    match row
    case UserRow(u) =>
      if UniqueOk(s, id, row) {
        assert UniqueUsers(s'.users.rows) by {
          forall i, j | i in s'.users.rows && j in s'.users.rows && i != j
            ensures s'.users.rows[i].username != s'.users.rows[j].username
            ensures s'.users.rows[i].email != s'.users.rows[j].email
          {
          }
        }
        assert Valid(s');
      }
      if Valid(s') {
        forall j | j in s.users.rows && j != id
          ensures s.users.rows[j].username != u.username && s.users.rows[j].email != u.email
        {
          assert s'.users.rows[j] == s.users.rows[j] && s'.users.rows[id] == u;
        }
      }
    case FoodRow(f) =>
      if UniqueOk(s, id, row) {
        assert UniqueFoods(s'.foods.rows) by {
          forall i, j | i in s'.foods.rows && j in s'.foods.rows && i != j
            ensures s'.foods.rows[i].name != s'.foods.rows[j].name
            ensures s'.foods.rows[i].manufacturer != s'.foods.rows[j].manufacturer
          {
          }
        }
        assert Valid(s');
      }
      if Valid(s') {
        forall j | j in s.foods.rows && j != id
          ensures s.foods.rows[j].name != f.name && s.foods.rows[j].manufacturer != f.manufacturer
        {
          assert s'.foods.rows[j] == s.foods.rows[j] && s'.foods.rows[id] == f;
        }
      }
    case LogRow(l) =>
      if UniqueOk(s, id, row) && RefsOk(s, row) {
        assert OneLogPerDay(s'.logs.rows) by {
          forall i, j | i in s'.logs.rows && j in s'.logs.rows && i != j
            ensures s'.logs.rows[i].userId != s'.logs.rows[j].userId
                 || s'.logs.rows[i].date != s'.logs.rows[j].date
          {
          }
        }
        assert Valid(s');
      }
      if Valid(s') {
        forall j | j in s.logs.rows && j != id
          ensures s.logs.rows[j].userId != l.userId || s.logs.rows[j].date != l.date
        {
          assert s'.logs.rows[j] == s.logs.rows[j] && s'.logs.rows[id] == l;
        }
        assert s'.logs.rows[id] == l;
      }
    case EntryRow(e) =>
      if Valid(s') {
        assert s'.entries.rows[id] == e;
      }
  }

  /** The logs user `uid` owns. */
  function LogsOf(s: Store, uid: int): (ids: set<int>)
    ensures ids <= s.logs.rows.Keys
    ensures Valid(s) && uid !in s.users.rows ==> ids == {}
  {
    var ids := set i | i in s.logs.rows && s.logs.rows[i].userId == uid;
    assert Valid(s) && uid !in s.users.rows ==> ids == {} by {
      if Valid(s) && uid !in s.users.rows {
        assert forall i | i in s.logs.rows :: s.logs.rows[i].userId != uid;
        assert forall i :: i !in ids;
      }
    }
    ids
  }

  /** The entries that belong to any of the logs `lids`. */
  function EntriesOf(s: Store, lids: set<int>): (ids: set<int>)
    ensures ids <= s.entries.rows.Keys
    ensures Valid(s) && lids !! s.logs.rows.Keys ==> ids == {}
  {
    var ids := set i | i in s.entries.rows && s.entries.rows[i].dailyLogId in lids;
    assert Valid(s) && lids !! s.logs.rows.Keys ==> ids == {} by {
      if Valid(s) && lids !! s.logs.rows.Keys {
        assert forall i | i in s.entries.rows :: s.entries.rows[i].dailyLogId !in lids;
        assert forall i :: i !in ids;
      }
    }
    ids
  }

  /** Whether some entry still references food `fid`. */
  predicate FoodReferenced(s: Store, fid: int) {
    exists i | i in s.entries.rows :: s.entries.rows[i].foodId == fid
  }

  /** Whether row `j` of table `k'` is owned, through the foreign keys the
      cascading relationships follow, by row `id` of table `k`: a user owns
      its logs and their entries, a log its entries. */
  predicate Owned(s: Store, k: Kind, id: int, k': Kind, j: int) {
    match (k, k')
    case (UserKind, DailyLogKind) => j in s.logs.rows && s.logs.rows[j].userId == id
    case (UserKind, FoodEntryKind) =>
      && j in s.entries.rows
      && s.entries.rows[j].dailyLogId in s.logs.rows
      && s.logs.rows[s.entries.rows[j].dailyLogId].userId == id
    case (DailyLogKind, FoodEntryKind) => j in s.entries.rows && s.entries.rows[j].dailyLogId == id
    case _ => false
  }

  /** `session.delete` of the row `id` of table `k` and the DELETE statements
      the flush issues: a user takes its logs with it and a log its entries
      (`cascade="all, delete-orphan"`); a food and an entry go alone.  Every
      row that is neither the deleted one nor owned by it stays. */
  function Remove(s: Store, k: Kind, id: int): (s': Store)
    ensures forall k', j ::
      Lookup(s', k', j) == (if (k' == k && j == id) || Owned(s, k, id, k', j) then None else Lookup(s, k', j))
    ensures forall k' :: Next(s', k') == Next(s, k')
  {
    match k
    case UserKind =>
      var lids := LogsOf(s, id);
      s.(users := s.users.(rows := s.users.rows - {id}),
         logs := s.logs.(rows := s.logs.rows - lids),
         entries := s.entries.(rows := s.entries.rows - EntriesOf(s, lids)))
    case DailyLogKind =>
      s.(logs := s.logs.(rows := s.logs.rows - {id}),
         entries := s.entries.(rows := s.entries.rows - EntriesOf(s, {id})))
    case FoodKind => s.(foods := s.foods.(rows := s.foods.rows - {id}))
    case FoodEntryKind => s.(entries := s.entries.(rows := s.entries.rows - {id}))
  }

  /** Removing a row keeps the store valid, provided no entry references a
      food being removed: the cascade leaves no child without its parent. */
  lemma {:induction false} RemoveValid(s: Store, k: Kind, id: int)
    ensures Valid(s) && (k == FoodKind ==> !FoodReferenced(s, id)) ==> Valid(Remove(s, k, id))
  {
    if !(Valid(s) && (k == FoodKind ==> !FoodReferenced(s, id))) {
      return;
    }
    var s' := Remove(s, k, id);
    match k
    case UserKind =>
      var lids := LogsOf(s, id);
      forall i | i in s'.logs.rows ensures s'.logs.rows[i].userId in s'.users.rows {
        assert i !in lids;
      }
      forall i | i in s'.entries.rows
        ensures s'.entries.rows[i].dailyLogId in s'.logs.rows
      {
        assert i !in EntriesOf(s, lids);
      }
    case DailyLogKind =>
      forall i | i in s'.entries.rows
        ensures s'.entries.rows[i].dailyLogId in s'.logs.rows
      {
        assert i !in EntriesOf(s, {id});
      }
    case FoodKind =>
      forall i | i in s'.entries.rows ensures s'.entries.rows[i].foodId in s'.foods.rows {
        assert s.entries.rows[i].foodId != id;
      }
    case FoodEntryKind =>
  }
}

=== FILE: values.dfy ===
// Values, column names and errors shared by the nutrition logger's tables,
// its validation schemas and its generic repository layer.

module Values {

  /** A calendar date, kept as an opaque ordered day number. */
  type Day = int

  datatype Option<+T> = None | Some(value: T)

  /** The four mapped entity classes: users, foods, daily_logs, food_entries. */
  datatype Kind = UserKind | FoodKind | DailyLogKind | FoodEntryKind

  /** Every non-key column of the four tables, named after the column. */
  datatype Attr =
    | Username | Email
    | Name | Manufacturer | ServingSize | Unit | Calories | Protein | Carbs | Fat
    | LogDate | UserId
    | DailyLogId | FoodId | Quantity

  /** A column that a keyword filter may name: the surrogate key or an attribute. */
  datatype Column = PrimaryKey | Attribute(attr: Attr)

  /** A Python value as it reaches the storage layer; `Null` is `None`. */
  datatype Value = Null | Str(s: string) | Num(x: real) | Int(n: int) | Date(day: Day)

  datatype ValueType = StrType | NumType | IntType | DateType

  /** The attribute columns each table declares, besides `id`. */
  function Attrs(k: Kind): set<Attr> {
    match k
    case UserKind => {Username, Email}
    case FoodKind => {Name, Manufacturer, ServingSize, Unit, Calories, Protein, Carbs, Fat}
    case DailyLogKind => {LogDate, UserId}
    case FoodEntryKind => {DailyLogId, FoodId, Quantity}
  }

  /** The declared Python type of each column (`str`, `float`, `int`, `date`). */
  function TypeOf(a: Attr): ValueType {
    match a
    case Username => StrType
    case Email => StrType
    case Name => StrType
    case Manufacturer => StrType
    case Unit => StrType
    case ServingSize => NumType
    case Calories => NumType
    case Protein => NumType
    case Carbs => NumType
    case Fat => NumType
    case Quantity => NumType
    case LogDate => DateType
    case UserId => IntType
    case DailyLogId => IntType
    case FoodId => IntType
  }

  /** A non-null value of the given type; `Null` has no type. */
  predicate HasType(v: Value, t: ValueType) {
    match t
    case StrType => v.Str?
    case NumType => v.Num?
    case IntType => v.Int?
    case DateType => v.Date?
  }

  predicate HasColumn(k: Kind, c: Column) {
    c.PrimaryKey? || c.attr in Attrs(k)
  }

  /** SQL equality as an exact-match filter uses it; an integer compares
      equal to the float of the same magnitude.  `filter_by(c=None)` renders
      `c IS NULL`, which no row meets because every column of the four
      tables is NOT NULL, so `Null` matches nothing here. */
  predicate SameValue(a: Value, b: Value) {
    match (a, b)
    case (Int(m), Num(y)) => m as real == y
    case (Num(x), Int(n)) => x == n as real
    case _ => a != Null && a == b
  }

  /** The failures the repository layer lets escape: Python `TypeError`s raised
      while building a call, database integrity and data errors raised at
      commit, and ORM errors for objects that are not persistent. */
  datatype Error =
    | InvalidKeyword       // the mapped class has no attribute of that name
    | DuplicateKeyword     // a keyword argument is supplied twice
    | DuplicateArgument    // a positional argument collides with a keyword one
    | NotNullViolation     // a NOT NULL column receives no value or NULL
    | UniqueViolation      // a unique constraint is broken
    | ForeignKeyViolation  // a foreign key names a missing row, or a row still referenced is removed
    | WrongType            // a value of the wrong type for its column
    | UnknownColumn        // a keyword filter names a column the table lacks
    | NotPersisted         // no row of the table has the object's key (update and delete)
    | NegativeLimit        // LIMIT must not be negative

  datatype Result<+T> = Ok(value: T) | Err(error: Error) {
    predicate IsFailure() {
      Err?
    }

    function PropagateFailure<U>(): Result<U>
      requires Err?
    {
      Err(error)
    }

    function Extract(): T
      requires Ok?
    {
      value
    }
  }
}
